=== FILE: README.md ===
# SPEdit editor logic, modelled in Dafny

This project models the editor-side logic of SPEdit, a code editor for SourcePawn.

**Go-to-definition.** A ctrl-click resolves the word under the mouse against a definition table. Declaration kinds are tried in a fixed order and the first hit wins. Value-like kinds compare names exactly; type-like kinds compare them ignoring case. A word that is an enum entry resolves to its enum. The locals of the function enclosing the caret are searched only for the current file.

**Editor helpers.** The model covers:
- the periodic collection of definition tables from the open editors (`ParseIncludes`), including the choice of the current function;
- the selection-word check and the highlight decision;
- the occurrence scan of the selection colorizer;
- the `//` comment toggle;
- the clamping of the go-to-line / go-to-offset popup.

**Find/replace panel.** The model covers:
- which editors an action works on and where it starts;
- the wrap-around search that looks at the rest of the starting editor first and its beginning last;
- the single replacement at the first hit;
- replace-all, which splices each editor's matches from the last to the first;
- how the find box becomes a pattern, including the escape decoding of the advanced mode.

**Definition browser.** The window lists a table's declarations:
- grouped by kind;
- with a placeholder for blank names;
- sorted by ordinal name;
- filtered by a case-insensitive substring query.

It also shows an enum's entries as numbered lines.

The modules are:

| module | file | concern |
|---|---|---|
| `Wrappers` | `wrappers.dfy` | `Option` |
| `Text` | `text.dfy` | white space, trimming, ASCII case folding, `IndexOf`, ordinal order, literal replacement, decimal digits, padding |
| `Seqs` | `seqs.dfy` | first/last positions satisfying a predicate |
| `Definitions` | `definitions.dfy` | the definition table and the `Decl` sum type |
| `Resolver` | `resolver.dfy` | `MatchDefinition` and ctrl-click navigation |
| `Workspace` | `workspace.dfy` | the collection loop of `ParseIncludes` |
| `EditorText` | `editor_text.dfy` | the editor's text helpers |
| `SearchPattern` | `search_pattern.dfy` | `GetSearchRegex` |
| `FindReplace` | `find_replace.dfy` | `Search`, `Replace`, `ReplaceAll` and their helpers |
| `DefinitionBrowser` | `definition_browser.dfy` | the definition window |

The regex engine, the parser that builds definition tables (the condenser), and the editor control are not modelled; what they produce is given to the model as input.

## Model

| member | source | states |
|---|---|---|
| Resolver.CurrentFunction | UI/Components/EditorElement.xaml.cs:897-901 | the current function is the first function whose `[Index, EndPos]` holds the caret, both ends included, and there is none exactly when no range holds it |
| Resolver.MatchDefinition | UI/Components/EditorElement.xaml.cs:280-345 | no table or no mouse position gives nothing; a result is the first hit of the first kind in the fixed order that hits, every earlier kind having missed; nothing is found exactly when every kind misses under its own rule; functions, variables, constants and defines are found by exact name, enums by exact name or an entry, enum structs, methodmaps, structs and typedefs by name ignoring case, methods and fields never; a variable found is a global one or, for the current file only, a local of the function enclosing the caret |
| Resolver.LocateFrom | UI/Components/EditorElement.xaml.cs:296-341 | the `??` chain: the first step with a hit, at that step's first hit, with every earlier step missing; nothing exactly when all steps miss |
| Resolver.Scan | UI/Components/EditorElement.xaml.cs:296-316 | one `FirstOrDefault`: the first declaration of the step's pool that answers the word, or nothing exactly when none does |
| Resolver.FunctionsComeFirst | UI/Components/EditorElement.xaml.cs:296 | a function named exactly like the word wins over every other kind, and it is the first such function |
| Resolver.LocalsOfEnclosingFunction | UI/Components/EditorElement.xaml.cs:299-303 | in the current file, with no function of that name, the word resolves to the first local of that name in the function enclosing the caret |
| Resolver.NoEnclosingFunctionNoLocals | UI/Components/EditorElement.xaml.cs:299-303 | when no function encloses the caret, the local step yields nothing and the current-file lookup equals the plain one |
| Resolver.EnumEntryResolvesToEnum | UI/Components/EditorElement.xaml.cs:318-329 | a word that only an enum's entry list matches resolves to the first enum listing it, the enum itself and not the entry |
| Resolver.AcceptedKind | UI/Components/EditorElement.xaml.cs:296-341 | a declaration a step accepts obeys its kind's comparison and is declared in the table where that step looks |
| Resolver.PoolKind | UI/Components/EditorElement.xaml.cs:296-341 | each step scans declarations of its own kind only, and each kind is scanned only by its own steps |
| Resolver.ColorsScenario | UI/Components/EditorElement.xaml.cs:318-329 | `GREEN`, an entry of enum `Colors`, resolves to `Colors` |
| Resolver.CaseSplitScenario | UI/Components/EditorElement.xaml.cs:306-341 | `FOO` finds a methodmap named `foo`, but not a variable named `foo` |
| Resolver.GoToDefinition | UI/Components/EditorElement.xaml.cs:583-636 | a blank word does nothing; a hit in the current file jumps to its span there; otherwise a hit in the configuration's table opens its include file from the first directory where it loads; a jump in the current file happens only on a hit there; no jump means no hit or no loadable file |
| Workspace.ClassifyIgnoresCase | UI/Components/EditorElement.xaml.cs:882-887 | an editor counts as an include or a script exactly when its extension without dots equals `inc` or `sp` ignoring case |
| Workspace.LastLoadedScript | UI/Components/EditorElement.xaml.cs:887-890 | the last loaded script among the editors, with none after it; none exactly when no editor is one |
| Workspace.Inspect | UI/Components/EditorElement.xaml.cs:879-894 | an editor contributes its parsed table when it is an include or a loaded script, and nothing otherwise; only a loaded script updates the caret and function list |
| Workspace.CollectDefinitions | UI/Components/EditorElement.xaml.cs:871-905 | one table slot per editor, in order; the caret and function list come from the last loaded script, or are -1 and none; the focused loaded script becomes the active file with its current function, otherwise the previous active file stays |
| EditorText.IsValidSearchSelectionString | UI/Components/EditorElement.xaml.cs:535-543 | true exactly when every character is in `[a-zA-Z0-9_]`, the empty string included |
| EditorText.HighlightFor | UI/Components/EditorElement.xaml.cs:770-799 | a selection is highlighted exactly when it is 1 to 49 characters of word characters, and then the highlighted string is the selection |
| EditorText.HighlightedIsNotBlank | UI/Components/EditorElement.xaml.cs:1212-1214 | a highlighted selection is never blank, so the colorizer never skips it |
| EditorText.ColorizeLine | UI/Components/EditorElement.xaml.cs:1210-1228 | nothing is painted when highlighting is off or the selection is blank; otherwise the painted starts are exactly the positions where the selection occurs, overlapping ones included, in increasing order |
| EditorText.ToggleComment | UI/Components/EditorElement.xaml.cs:414-437 | a line whose first non-blank characters are `//` loses those two characters; any other line gets `//` inserted after its indentation |
| EditorText.TrimmedStartsWithComment | UI/Components/EditorElement.xaml.cs:418-428 | testing the trimmed line for `//` is the same as looking right after the leading white space |
| EditorText.UncommentAfterComment | UI/Components/EditorElement.xaml.cs:414-437 | commenting an uncommented line and toggling again restores it |
| EditorText.CommentAfterUncomment | UI/Components/EditorElement.xaml.cs:414-437 | uncommenting a line whose `//` is followed by neither white space nor another `//`, then toggling again, restores it |
| EditorText.SpaceAfterCommentIsNotRestored | UI/Components/EditorElement.xaml.cs:414-437 | the round trip does not hold in general: `// x` toggles to ` x` and then to ` //x` |
| EditorText.Clamp | UI/Components/EditorElement.xaml.cs:683 | `Math.Max(low, Math.Min(v, high))` lies in `[low, high]`, is `v` inside the range and the nearer bound outside it |
| EditorText.JumpTarget | UI/Components/EditorElement.xaml.cs:677-702 | no jump exactly when the text is not a number; a line jump lands on a line from 1 to the line count, an offset jump on an offset from 0 to the text length, and an in-range number is used unchanged |
| EditorText.JumpTargetIdempotent | UI/Components/EditorElement.xaml.cs:683-694 | typing the number the popup jumped to jumps to the same place |
| EditorText.JumpTargetMonotone | UI/Components/EditorElement.xaml.cs:683-694 | a larger number never jumps to an earlier line or offset |
| SearchPattern.GetSearchRegex | UI/MainWindowFindReplaceHandler.cs:286-341 | an empty find string gives no pattern, and so does an expression that does not compile in the regex mode; otherwise the matcher the mode selects, ignoring case unless the case box is checked, multi-line in the regex mode and single-line too when its box is checked |
| SearchPattern.ControlEscapesLeaveNone | UI/MainWindowFindReplaceHandler.cs:319 | after the control-character stage no `\t`, `\r` or `\n` escape is left in the find string |
| SearchPattern.DecodeEscapesShrinks | UI/MainWindowFindReplaceHandler.cs:319-322 | decoding the escapes never makes the find string longer |
| SearchPattern.DecodeEscapesWithoutBackslash | UI/MainWindowFindReplaceHandler.cs:319-322 | a find string without a backslash is searched for as typed |
| SearchPattern.HexEscapeExample | UI/MainWindowFindReplaceHandler.cs:320-322 | `\x0041` decodes to `A` |
| FindReplace.ValueUnderMap | UI/MainWindowFindReplaceHandler.cs:368-375 | a non-negative value is reduced to `value % map`, which lies in `[0, map)`; a negative value comes back unchanged |
| FindReplace.LastPositionOf | UI/MainWindowFindReplaceHandler.cs:355-361 | the last position holding the selected editor, with none after it; none exactly when it is absent |
| FindReplace.EditorsForAction | UI/MainWindowFindReplaceHandler.cs:343-366 | current-document mode gives the current editor alone with start 0; otherwise all editors, starting at the last position of the selected one, or at 0 when it is absent |
| FindReplace.StepEditor | UI/MainWindowFindReplaceHandler.cs:133-135 | step `k` of a search over `n` editors from `start` visits editor `(start + k) % n` |
| FindReplace.Search | UI/MainWindowFindReplaceHandler.cs:123-176 | nothing runs without editors or a pattern; "found nothing" exactly when no step matched; otherwise the first matching step selects its match shifted into its editor's coordinates, puts the caret after it, and no later step was a hit; the selection lies inside the editor's text |
| FindReplace.FoundInEditor | UI/MainWindowFindReplaceHandler.cs:138-163 | a match inside the searched text, shifted by that step's offset, lies inside the visited editor's text |
| FindReplace.VisitOrder | UI/MainWindowFindReplaceHandler.cs:133-135 | the first and last steps visit the starting editor; the steps in between visit every other editor exactly once |
| FindReplace.StartingEditorCovered | UI/MainWindowFindReplaceHandler.cs:138-150 | the last step's text followed by the first step's text is the starting editor's whole text, each part searched once |
| FindReplace.Replace | UI/MainWindowFindReplaceHandler.cs:178-233 | the traversal of `Search`; at the first hit the match is replaced by its expansion and the rest of the editor's text is kept; the expansion is selected, starting at the corrected offset where it now sits in the text, with the caret after it; the status line reports the window's minimum height plus the step's offset, as the code stands |
| FindReplace.ReplacedOffsetIndexesReplacement | UI/MainWindowFindReplaceHandler.cs:219-224 | after the match's span is replaced, the corrected offset is where the replacement text starts in the new buffer; the text before it and the text after the replacement are the old buffer's |
| FindReplace.ReplacedOffsetAsWrittenMisreports | UI/MainWindowFindReplaceHandler.cs:224 | the offset formatted into the status line as the code stands ignores the match, so some match is reported at the wrong offset whatever the window height |
| FindReplace.ReplaceFromLast | UI/MainWindowFindReplaceHandler.cs:256-260 | splicing the matches from the last to the first gives the left-to-right substitution of every match by its replacement |
| FindReplace.ReplaceInEditor | UI/MainWindowFindReplaceHandler.cs:250-263 | an editor with matches gets all of them replaced; one without keeps its text |
| FindReplace.SubstituteIdentity | UI/MainWindowFindReplaceHandler.cs:256-260 | replacing every match by the text it matched leaves the text unchanged |
| FindReplace.SubstituteLength | UI/MainWindowFindReplaceHandler.cs:256-260 | the replaced text is as long as the original plus each replacement's change in length |
| FindReplace.ReplaceAll | UI/MainWindowFindReplaceHandler.cs:235-267 | nothing runs without editors or a pattern; every editor's text becomes its substitution and its save flag is set when it had a match; the count is the total number of matches and the file count the number of editors with a match |
| FindReplace.FileCountBounds | UI/MainWindowFindReplaceHandler.cs:251-254 | the file count is at most the number of editors and at most the match count, and it is zero exactly when the match count is |
| DefinitionBrowser.Flatten | UI/Windows/SPDefinitionWindow.xaml.cs:41-60 | one entry per grouped declaration, in group order, each named after its declaration and carrying it |
| DefinitionBrowser.FlattenExact | UI/Windows/SPDefinitionWindow.xaml.cs:41-60 | the list holds exactly the table's non-variable declarations, each methodmap and enum struct member included, grouped by kind in the window's order |
| DefinitionBrowser.MethodmapMembers | UI/Windows/SPDefinitionWindow.xaml.cs:50-54 | a declaration is in the methodmap member group exactly when it is a method or field of some methodmap of the table |
| DefinitionBrowser.EnumStructMembers | UI/Windows/SPDefinitionWindow.xaml.cs:56-60 | a declaration is in the enum struct member group exactly when it is a method or field of some enum struct of the table |
| DefinitionBrowser.Rename | UI/Windows/SPDefinitionWindow.xaml.cs:62-63 | blank names become the placeholder and no other name changes; the declarations and their order are kept, and no name is blank afterwards |
| DefinitionBrowser.Insert | UI/Windows/SPDefinitionWindow.xaml.cs:64 | inserting into a list sorted by ordinal name keeps it sorted and adds exactly the new entry |
| DefinitionBrowser.Sort | UI/Windows/SPDefinitionWindow.xaml.cs:64 | the sorted list is ordered by ordinal name and is a permutation of the input |
| DefinitionBrowser.Open | UI/Windows/SPDefinitionWindow.xaml.cs:32-72 | the window lists nothing exactly when the configuration has no table |
| DefinitionBrowser.OpenLists | UI/Windows/SPDefinitionWindow.xaml.cs:41-72 | the opened list is sorted, has one item per grouped declaration, and every item shows a listed declaration under that declaration's name, or under the placeholder when the name is blank |
| DefinitionBrowser.OpenComplete | UI/Windows/SPDefinitionWindow.xaml.cs:41-72 | every declaration the window lists has an item in the opened list |
| DefinitionBrowser.DoSearch | UI/Windows/SPDefinitionWindow.xaml.cs:228-246 | the items shown are exactly those whose lower-cased name contains the lower-cased query, in list order; the found flag holds exactly when some item is shown |
| DefinitionBrowser.EmptyQueryShowsAll | UI/Windows/SPDefinitionWindow.xaml.cs:233-237 | an empty query shows every item |
| DefinitionBrowser.EnumLineLabel | UI/Windows/SPDefinitionWindow.xaml.cs:121-124 | each detail line starts with the entry's position in decimal digits, followed by a dot |
| DefinitionBrowser.EnumLineBreaks | UI/Windows/SPDefinitionWindow.xaml.cs:123-124 | a detail line holds exactly one line feed when its entry holds none |
| DefinitionBrowser.EnumDetailLines | UI/Windows/SPDefinitionWindow.xaml.cs:120-127 | the detail text has exactly one line per entry when no entry holds a line feed |
| DefinitionBrowser.EnumTypeCount | UI/Windows/SPDefinitionWindow.xaml.cs:119 | the type line reads `Enum `, then the number of entries in decimal |

## Left out

- The condenser and `ProduceTemporaryExpandedDefinition`: their bodies are not part of this model. Each editor's parsed table is an input, and the merged table is passed to the resolver and the definition window as data.
- The mouse-to-offset mapping and `GetWordAtMousePosition` belong to the editor control. The word and offset are parameters, and `None` stands for a point outside the text.
- The rest of AvalonEdit (documents, carets, selections, scrolling, `BeginChange`/`EndChange`) is not modelled. Texts are strings and edits are splices.
- The .NET regex engine, `Regex.Escape` and `Match.Result` are not modelled. `Search` and `Replace` take the engine's first match as a function, and `Replace` takes the expansion as a function. `ReplaceAll` takes each editor's ordered, non-overlapping matches with their expanded replacements. A pattern is described by what it was built from.
- `Count` is not modelled on its own: it reports the same total as `FindReplace.TotalMatches` does for replace-all.
- Timers and `Dispatcher.Invoke` are scheduling, not behaviour, and the async delays of the ctrl-click handler are left out with them.
- File I/O is left out. Loading an include file is the `loads` parameter of `Resolver.GoToDefinition`, and the full-path normalisation `Path.GetFullPath` is not modelled.
- Translations are parameters: the "no name" word of the definition window. Status-line messages are represented by result constructors.
- `int.TryParse` is not modelled; the popup's number is an `Option<int>` input.
- Case-insensitive comparison (`InvariantCultureIgnoreCase`, `ToLowerInvariant`) is modelled as ASCII case folding, an approximation of the invariant culture.
- Text is a sequence of Unicode scalar values, while .NET strings are UTF-16 code units. Offsets, lengths and `string.CompareOrdinal` are therefore per scalar value here. They agree with the source only for text within the Basic Multilingual Plane. Beyond it, a character is two code units in the source, and ordinal order between a surrogate pair and a code unit from U+E000 to U+FFFF is reversed.
- Null names in the definition window are modelled as the empty string, which `IsNullOrWhiteSpace` treats the same way.
- Resolver.MatchDefinition: a null declaration name or enum entry makes the source's `.Equals(word)` throw a `NullReferenceException` in every step except functions (UI/Components/EditorElement.xaml.cs:301-341). Names are strings here, so the model reports a miss instead and does not promise the exception.
- Resolver.JoinPath: a rooted file name, which `Path.Combine` returns on its own, is not modelled; declaration files are relative names.
- The detail texts of the definition window's kinds other than enums are left out. Most of them copy the declaration's fields. The methodmap text counts its methods and fields and lists each member's full name (UI/Windows/SPDefinitionWindow.xaml.cs:153-167). Enum structs and their members have no branch, so they show only the item's name with every other box blank (UI/Windows/SPDefinitionWindow.xaml.cs:214-218).
- The list items are modelled as the entries themselves (item `i` shows entry `i`'s name).
- FindReplace.EditorsForAction: in current-document mode with no current editor it gives an empty list. The source's null element makes every caller return without doing anything, and so does the empty list.
- FindReplace.EditorsForAction compares editors by an identity number, standing for the source's reference equality.
- FindReplace.Search: a negative caret is raised to zero for the searched text but added raw to the match index, as in the source; the selection bounds are promised only when the caret is not negative.
- FindReplace.Replace requires a non-negative caret in the starting editor, so that the splice offsets exist.
- FindReplace.ReplacedOffset: the corrected offset is the selection of `Replace`; the status line is modelled as written, through `ReplacedOffsetAsWritten`.
- FindReplace.ReplacedText treats a match list that is not ordered and non-overlapping as no change. The engine never produces one.
- DefinitionBrowser.Sort: `List.Sort` is not stable and its order among equal names is unspecified. The model is an insertion sort, one of the orders it may produce; the contract promises only sortedness and permutation.
- EditorText.UncommentAfterComment and EditorText.CommentAfterUncomment: toggling twice restores the line only under their preconditions. EditorText.SpaceAfterCommentIsNotRestored shows a line where it does not.
- SearchPattern.HexEscapes: a four-digit escape naming half of a surrogate pair is left as written rather than turned into a lone code unit, because a Dafny `char` cannot hold one.
- The window height `MinHeight` in the status-line defect is modelled as an integer parameter.
- The syntax-highlighting objects, autocompletion nodes, fonts and window layout are not modelled.

## Findings

| source | as written | input that shows it | evidently intended | confidence | as-written member | corrected member |
|---|---|---|---|---|---|---|
| UI/MainWindowFindReplaceHandler.cs:224 | after a single replacement the status line reports `MinHeight + addToOffset`, the window's minimum height plus the step offset | with `MinHeight` 0, a match at index 5 in an editor other than the starting one is reported at offset 0 | the offset where the replacement starts, `m.Index + addToOffset`, as the selection on line 221 uses | high, not executed | FindReplace.ReplacedOffsetAsWrittenMisreports | FindReplace.ReplacedOffsetIndexesReplacement |

=== FILE: definition_browser.dfy ===
/**
 * The definition browser window: every declaration of the selected
 * configuration's table in one list, blank names given a placeholder, sorted
 * by ordinal name; a search box that keeps the entries whose lower-cased name
 * contains the lower-cased query; and the detail text shown for an enum.
 */
module DefinitionBrowser {
  import opened Wrappers
  import opened Text
  import opened Definitions
  import opened Resolver

  /** One list item: the name shown and the declaration it stands for. */
  datatype Entry = Entry(name: string, decl: Decl)

  /** The order of the kinds in the list before sorting; variables are never listed. */
  function Rank(x: Decl): nat {
    match x
    case FunctionDecl(_) => 0
    case ConstantDecl(_) => 1
    case EnumDecl(_) => 2
    case DefineDecl(_) => 3
    case StructDecl(_) => 4
    case MethodmapDecl(_) => 5
    case TypedefDecl(_) => 6
    case EnumStructDecl(_) => 7
    case MethodmapMethodDecl(_) => 8
    case MethodmapFieldDecl(_) => 8
    case EnumStructMethodDecl(_) => 9
    case EnumStructFieldDecl(_) => 9
    case VariableDecl(_) => 10
  }

  /** A methodmap's methods as declarations, in order. */
  function MethodmapMethods(mm: Methodmap): seq<Decl> {
    seq(|mm.methods|, i requires 0 <= i < |mm.methods| => MethodmapMethodDecl(mm.methods[i]))
  }

  /** A methodmap's fields as declarations, in order. */
  function MethodmapFields(mm: Methodmap): seq<Decl> {
    seq(|mm.fields|, i requires 0 <= i < |mm.fields| => MethodmapFieldDecl(mm.fields[i]))
  }

  /** An enum struct's methods as declarations, in order. */
  function EnumStructMethods(es: EnumStruct): seq<Decl> {
    seq(|es.methods|, i requires 0 <= i < |es.methods| => EnumStructMethodDecl(es.methods[i]))
  }

  /** An enum struct's fields as declarations, in order. */
  function EnumStructFields(es: EnumStruct): seq<Decl> {
    seq(|es.fields|, i requires 0 <= i < |es.fields| => EnumStructFieldDecl(es.fields[i]))
  }

  /** `x` is a method or a field of one of the methodmaps. */
  ghost predicate MethodmapMember(mms: seq<Methodmap>, x: Decl) {
    || (x.MethodmapMethodDecl? && exists mm :: mm in mms && x.member in mm.methods)
    || (x.MethodmapFieldDecl? && exists mm :: mm in mms && x.member in mm.fields)
  }

  /** `x` is a method or a field of one of the enum structs. */
  ghost predicate EnumStructMember(ess: seq<EnumStruct>, x: Decl) {
    || (x.EnumStructMethodDecl? && exists es :: es in ess && x.member in es.methods)
    || (x.EnumStructFieldDecl? && exists es :: es in ess && x.member in es.fields)
  }

  /** The methods, then the fields, of each methodmap in table order: exactly the members of the methodmaps. */
  function MethodmapMembers(mms: seq<Methodmap>): (r: seq<Decl>)
    ensures forall i :: 0 <= i < |r| ==> r[i].MethodmapMethodDecl? || r[i].MethodmapFieldDecl?
    ensures forall x :: x in r <==> MethodmapMember(mms, x)
    decreases |mms|
  {
    if |mms| == 0 then []
    else
      var n := |mms| - 1;
      var rest := MethodmapMembers(mms[..n]);
      MethodmapMembersStep(mms[..n], mms[n], rest);
      assert mms[..n] + [mms[n]] == mms;
      rest + MethodmapMethods(mms[n]) + MethodmapFields(mms[n])
  }

  /** Appending one methodmap's methods and fields extends the members by exactly that methodmap's. */
  lemma MethodmapMembersStep(prefix: seq<Methodmap>, mm: Methodmap, rest: seq<Decl>)
    requires forall x :: x in rest <==> MethodmapMember(prefix, x)
    ensures forall x :: x in rest + MethodmapMethods(mm) + MethodmapFields(mm) <==> MethodmapMember(prefix + [mm], x)
  {
    var ms, fs := MethodmapMethods(mm), MethodmapFields(mm);
    assert forall o :: o in prefix + [mm] <==> o in prefix || o == mm;
    forall x
      ensures x in rest + ms + fs <==> MethodmapMember(prefix + [mm], x)
    {
      if x.MethodmapMethodDecl? && x.member in mm.methods {
        var i :| 0 <= i < |mm.methods| && mm.methods[i] == x.member;
        assert ms[i] == x;
      }
      if x.MethodmapFieldDecl? && x.member in mm.fields {
        var i :| 0 <= i < |mm.fields| && mm.fields[i] == x.member;
        assert fs[i] == x;
      }
    }
  }

  /** The methods, then the fields, of each enum struct in table order: exactly the members of the enum structs. */
  function EnumStructMembers(ess: seq<EnumStruct>): (r: seq<Decl>)
    ensures forall i :: 0 <= i < |r| ==> r[i].EnumStructMethodDecl? || r[i].EnumStructFieldDecl?
    ensures forall x :: x in r <==> EnumStructMember(ess, x)
    decreases |ess|
  {
    if |ess| == 0 then []
    else
      var n := |ess| - 1;
      var rest := EnumStructMembers(ess[..n]);
      EnumStructMembersStep(ess[..n], ess[n], rest);
      assert ess[..n] + [ess[n]] == ess;
      rest + EnumStructMethods(ess[n]) + EnumStructFields(ess[n])
  }

  /** Appending one enum struct's methods and fields extends the members by exactly that enum struct's. */
  lemma EnumStructMembersStep(prefix: seq<EnumStruct>, es: EnumStruct, rest: seq<Decl>)
    requires forall x :: x in rest <==> EnumStructMember(prefix, x)
    ensures forall x :: x in rest + EnumStructMethods(es) + EnumStructFields(es) <==> EnumStructMember(prefix + [es], x)
  {
    var ms, fs := EnumStructMethods(es), EnumStructFields(es);
    assert forall o :: o in prefix + [es] <==> o in prefix || o == es;
    forall x
      ensures x in rest + ms + fs <==> EnumStructMember(prefix + [es], x)
    {
      if x.EnumStructMethodDecl? && x.member in es.methods {
        var i :| 0 <= i < |es.methods| && es.methods[i] == x.member;
        assert ms[i] == x;
      }
      if x.EnumStructFieldDecl? && x.member in es.fields {
        var i :| 0 <= i < |es.fields| && es.fields[i] == x.member;
        assert fs[i] == x;
      }
    }
  }

  /** The ten groups the window appends one after the other. */
  function Blocks(d: Definition): seq<seq<Decl>> {
    [Pool(d, Functions, -1, false), Pool(d, Constants, -1, false), Pool(d, Enums, -1, false),
     Pool(d, Defines, -1, false), Pool(d, Structs, -1, false), Pool(d, Methodmaps, -1, false),
     Pool(d, Typedefs, -1, false), Pool(d, EnumStructs, -1, false),
     MethodmapMembers(d.methodmaps), EnumStructMembers(d.enumStructs)]
  }

  /** The groups one after the other. */
  function Concat(bs: seq<seq<Decl>>): seq<Decl>
    decreases |bs|
  {
    if |bs| == 0 then [] else Concat(bs[..|bs| - 1]) + bs[|bs| - 1]
  }

  /** Group `b` holds only declarations of rank `b`. */
  ghost predicate RankedBlocks(bs: seq<seq<Decl>>) {
    forall b, i :: 0 <= b < |bs| && 0 <= i < |bs[b]| ==> Rank(bs[b][i]) == b
  }

  /** The kind ranks never decrease along the list. */
  ghost predicate RankOrdered(xs: seq<Decl>) {
    forall i, j :: 0 <= i < j < |xs| ==> Rank(xs[i]) <= Rank(xs[j])
  }

  lemma {:induction false} ConcatRankOrdered(bs: seq<seq<Decl>>)
    requires RankedBlocks(bs)
    ensures RankOrdered(Concat(bs))
    ensures forall i :: 0 <= i < |Concat(bs)| ==> Rank(Concat(bs)[i]) < |bs|
    decreases |bs|
  {
    if |bs| > 0 {
      var n := |bs| - 1;
      var front := bs[..n];
      assert RankedBlocks(front) by {
        forall b, i | 0 <= b < |front| && 0 <= i < |front[b]|
          ensures Rank(front[b][i]) == b
        {
          assert front[b] == bs[b];
        }
      }
      ConcatRankOrdered(front);
      var c := Concat(bs);
      var p := Concat(front);
      assert c == p + bs[n];
      forall i | 0 <= i < |c|
        ensures Rank(c[i]) <= n
      {
        if i >= |p| {
          assert c[i] == bs[n][i - |p|];
        }
      }
      forall i, j | 0 <= i < j < |c|
        ensures Rank(c[i]) <= Rank(c[j])
      {
        if j >= |p| {
          assert c[j] == bs[n][j - |p|];
        }
      }
    }
  }

  /** Every element of every group is in the concatenation. */
  lemma {:induction false} ConcatContains(bs: seq<seq<Decl>>, b: nat, x: Decl)
    requires b < |bs| && x in bs[b]
    ensures x in Concat(bs)
    decreases |bs|
  {
    var n := |bs| - 1;
    if b < n {
      assert bs[..n][b] == bs[b];
      ConcatContains(bs[..n], b, x);
    }
  }

  /** Every element of the concatenation comes from one of the groups. */
  lemma {:induction false} ConcatFrom(bs: seq<seq<Decl>>, x: Decl)
    requires x in Concat(bs)
    ensures exists b :: 0 <= b < |bs| && x in bs[b]
    decreases |bs|
  {
    var n := |bs| - 1;
    if x !in bs[n] {
      ConcatFrom(bs[..n], x);
      var b :| 0 <= b < n && x in bs[..n][b];
      assert bs[..n][b] == bs[b];
    }
  }

  /** The window's list before renaming and sorting, each item named after its declaration. */
  function Flatten(d: Definition): (r: seq<Entry>)
    ensures |r| == |Concat(Blocks(d))|
    ensures forall i :: 0 <= i < |r| ==> r[i].decl == Concat(Blocks(d))[i] && r[i].name == r[i].decl.Name()
  {
    var xs := Concat(Blocks(d));
    seq(|xs|, i requires 0 <= i < |xs| => Entry(xs[i].Name(), xs[i]))
  }

  /** `x` is one of the table's declarations the window lists: not a variable, and found where its kind is kept. */
  ghost predicate Listed(d: Definition, x: Decl) {
    match x
    case FunctionDecl(f) => f in d.functions
    case VariableDecl(_) => false
    case ConstantDecl(s) => s in d.constants
    case DefineDecl(s) => s in d.defines
    case EnumDecl(e) => e in d.enums
    case EnumStructDecl(e) => e in d.enumStructs
    case MethodmapDecl(m) => m in d.methodmaps
    case StructDecl(s) => s in d.structs
    case TypedefDecl(s) => s in d.typedefs
    case MethodmapMethodDecl(m) => exists mm :: mm in d.methodmaps && m in mm.methods
    case MethodmapFieldDecl(m) => exists mm :: mm in d.methodmaps && m in mm.fields
    case EnumStructMethodDecl(m) => exists es :: es in d.enumStructs && m in es.methods
    case EnumStructFieldDecl(m) => exists es :: es in d.enumStructs && m in es.fields
  }

  /** The groups hold their own kind only, in the window's order of kinds. */
  lemma BlocksRanked(d: Definition)
    ensures RankedBlocks(Blocks(d))
  {
  }

  /** A top-level group holds only declarations of its table, of its own kind. */
  lemma TopLevelSound(d: Definition, b: nat, x: Decl)
    requires b < 8 && x in Blocks(d)[b]
    ensures Listed(d, x) && Rank(x) == b
  {
    if b < 4 {
      FirstGroupsSound(d, b, x);
    } else {
      LaterGroupsSound(d, b, x);
    }
  }

  /** Functions, constants, enums and defines come from their tables. */
  lemma FirstGroupsSound(d: Definition, b: nat, x: Decl)
    requires 0 <= b < 4 && x in Blocks(d)[b]
    ensures Listed(d, x) && Rank(x) == b
  {
    var xs := Blocks(d)[b];
    var i :| 0 <= i < |xs| && xs[i] == x;
    match x
    case FunctionDecl(f) => assert f == d.functions[i];
    case ConstantDecl(s) => assert s == d.constants[i];
    case EnumDecl(e) => assert e == d.enums[i];
    case DefineDecl(s) => assert s == d.defines[i];
    case _ => assert false;
  }

  /** Structs, methodmaps, typedefs and enum structs come from their tables. */
  lemma LaterGroupsSound(d: Definition, b: nat, x: Decl)
    requires 4 <= b < 8 && x in Blocks(d)[b]
    ensures Listed(d, x) && Rank(x) == b
  {
    var xs := Blocks(d)[b];
    var i :| 0 <= i < |xs| && xs[i] == x;
    match x
    case StructDecl(s) => assert s == d.structs[i];
    case MethodmapDecl(m) => assert m == d.methodmaps[i];
    case TypedefDecl(s) => assert s == d.typedefs[i];
    case EnumStructDecl(e) => assert e == d.enumStructs[i];
    case _ => assert false;
  }

  /** Every declaration of a top-level table is in the group of its kind. */
  lemma TopLevelComplete(d: Definition, x: Decl)
    requires Listed(d, x) && Rank(x) < 8
    ensures x in Blocks(d)[Rank(x)]
  {
    if Rank(x) < 4 {
      FirstGroupsComplete(d, x);
    } else {
      LaterGroupsComplete(d, x);
    }
  }

  /** Every function, constant, enum and define is in its group. */
  lemma FirstGroupsComplete(d: Definition, x: Decl)
    requires Listed(d, x) && 0 <= Rank(x) < 4
    ensures x in Blocks(d)[Rank(x)]
  {
    var xs := Blocks(d)[Rank(x)];
    match x
    case FunctionDecl(f) =>
      var i :| 0 <= i < |d.functions| && d.functions[i] == f;
      assert xs[i] == x;
    case ConstantDecl(s) =>
      var i :| 0 <= i < |d.constants| && d.constants[i] == s;
      assert xs[i] == x;
    case EnumDecl(e) =>
      var i :| 0 <= i < |d.enums| && d.enums[i] == e;
      assert xs[i] == x;
    case DefineDecl(s) =>
      var i :| 0 <= i < |d.defines| && d.defines[i] == s;
      assert xs[i] == x;
  }

  /** Every struct, methodmap, typedef and enum struct is in its group. */
  lemma LaterGroupsComplete(d: Definition, x: Decl)
    requires Listed(d, x) && 4 <= Rank(x) < 8
    ensures x in Blocks(d)[Rank(x)]
  {
    var xs := Blocks(d)[Rank(x)];
    match x
    case StructDecl(s) =>
      var i :| 0 <= i < |d.structs| && d.structs[i] == s;
      assert xs[i] == x;
    case MethodmapDecl(m) =>
      var i :| 0 <= i < |d.methodmaps| && d.methodmaps[i] == m;
      assert xs[i] == x;
    case TypedefDecl(s) =>
      var i :| 0 <= i < |d.typedefs| && d.typedefs[i] == s;
      assert xs[i] == x;
    case EnumStructDecl(e) =>
      var i :| 0 <= i < |d.enumStructs| && d.enumStructs[i] == e;
      assert xs[i] == x;
  }

  /**
   * The list holds exactly the table's declarations other than its
   * variables, grouped by kind in the order functions, constants, enums,
   * defines, structs, methodmaps, typedefs, enum structs, methodmap members,
   * enum struct members.
   */
  lemma FlattenExact(d: Definition, x: Decl)
    ensures x in Concat(Blocks(d)) <==> Listed(d, x)
    ensures RankOrdered(Concat(Blocks(d)))
  {
    var bs := Blocks(d);
    BlocksRanked(d);
    ConcatRankOrdered(bs);
    if Listed(d, x) && Rank(x) < 8 {
      TopLevelComplete(d, x);
    }
    if x in Concat(bs) {
      ConcatFrom(bs, x);
      var b :| 0 <= b < |bs| && x in bs[b];
      if b < 8 {
        TopLevelSound(d, b, x);
      }
    }
    if Listed(d, x) {
      ConcatContains(bs, Rank(x), x);
    }
  }

  /** The text shown instead of a blank name, around the translated "no name" word. */
  function Placeholder(noName: string): string {
    "--" + noName + "--"
  }

  /** The placeholder is never blank, whatever the translation. */
  lemma PlaceholderNotBlank(noName: string)
    ensures !IsBlank(Placeholder(noName))
  {
    assert !IsWhiteSpace(Placeholder(noName)[0]);
  }

  /** Blank names (null, empty or white space) replaced by the placeholder; the declaration is kept. */
  function Rename(entries: seq<Entry>, noName: string): (r: seq<Entry>)
    ensures |r| == |entries|
    ensures forall i :: 0 <= i < |r| ==> r[i].decl == entries[i].decl
    ensures forall i :: 0 <= i < |r| ==> !IsBlank(r[i].name)
    ensures forall i :: 0 <= i < |r| ==> (r[i].name == entries[i].name <==> !IsBlank(entries[i].name))
  {
    PlaceholderNotBlank(noName);
    seq(|entries|, i requires 0 <= i < |entries| =>
      if IsBlank(entries[i].name) then Entry(Placeholder(noName), entries[i].decl) else entries[i])
  }

  /** Sorted by `string.CompareOrdinal` on the names. */
  ghost predicate SortedByName(xs: seq<Entry>) {
    forall i, j :: 0 <= i < j < |xs| ==> OrdinalLe(xs[i].name, xs[j].name)
  }

  /** `x` put in front of the first entry whose name is not below its own. */
  function Insert(x: Entry, xs: seq<Entry>): (r: seq<Entry>)
    requires SortedByName(xs)
    ensures SortedByName(r)
    ensures multiset(r) == multiset(xs) + multiset{x}
    decreases |xs|
  {
    if |xs| == 0 then [x]
    else if OrdinalLe(x.name, xs[0].name) then
      InsertFront(x, xs);
      [x] + xs
    else
      var rest := Insert(x, xs[1..]);
      OrdinalLeTotal(x.name, xs[0].name);
      InsertBehind(xs[0], x, xs[1..], rest);
      assert xs == [xs[0]] + xs[1..];
      [xs[0]] + rest
  }

  /** An entry not above the first of a sorted list can lead it. */
  lemma InsertFront(x: Entry, xs: seq<Entry>)
    requires SortedByName(xs) && |xs| > 0 && OrdinalLe(x.name, xs[0].name)
    ensures SortedByName([x] + xs)
  {
    forall j | 0 < j < |xs| + 1
      ensures OrdinalLe(x.name, ([x] + xs)[j].name)
    {
      if j > 1 {
        OrdinalLeTransitive(x.name, xs[0].name, xs[j - 1].name);
      }
    }
  }

  /** The head of a sorted list can lead the result of inserting a larger entry into its tail. */
  lemma InsertBehind(head: Entry, x: Entry, tail: seq<Entry>, rest: seq<Entry>)
    requires SortedByName([head] + tail) && SortedByName(rest)
    requires OrdinalLe(head.name, x.name)
    requires multiset(rest) == multiset(tail) + multiset{x}
    ensures SortedByName([head] + rest)
  {
    forall j | 0 <= j < |rest|
      ensures OrdinalLe(head.name, rest[j].name)
    {
      assert rest[j] in multiset(rest);
      if rest[j] != x {
        assert rest[j] in multiset(tail);
        var k :| 0 <= k < |tail| && tail[k] == rest[j];
        assert ([head] + tail)[0] == head && ([head] + tail)[k + 1] == tail[k];
      }
    }
  }

  /** `List.Sort` with `CompareOrdinal` on the names, as an insertion sort. */
  function Sort(xs: seq<Entry>): (r: seq<Entry>)
    ensures SortedByName(r)
    ensures multiset(r) == multiset(xs)
    decreases |xs|
  {
    if |xs| == 0 then []
    else
      assert xs == xs[..|xs| - 1] + [xs[|xs| - 1]];
      Insert(xs[|xs| - 1], Sort(xs[..|xs| - 1]))
  }

  /**
   * Opening the window: nothing when the configuration has no table (the
   * window reports the error and closes), otherwise the items, sorted by
   * name, of every listed declaration with the placeholder for blank names.
   */
  function Open(def: Option<Definition>, noName: string): (r: Option<seq<Entry>>)
    ensures r.None? <==> def.None?
  {
    match def
    case None => None
    case Some(d) => Some(Sort(Rename(Flatten(d), noName)))
  }

  /**
   * The opened list is sorted, shows no blank name, and holds one item per
   * listed declaration: each shows its declaration's name, or the placeholder
   * when that name is blank.
   */
  lemma OpenLists(d: Definition, noName: string)
    ensures SortedByName(Open(Some(d), noName).value)
    ensures |Open(Some(d), noName).value| == |Concat(Blocks(d))|
    ensures forall e :: e in Open(Some(d), noName).value ==>
      Listed(d, e.decl) && !IsBlank(e.name)
      && e.name == (if IsBlank(e.decl.Name()) then Placeholder(noName) else e.decl.Name())
  {
    var flat := Flatten(d);
    var renamed := Rename(flat, noName);
    var r := Open(Some(d), noName).value;
    assert |r| == |multiset(r)| == |multiset(renamed)| == |renamed|;
    forall e | e in r
      ensures Listed(d, e.decl) && !IsBlank(e.name)
      ensures e.name == (if IsBlank(e.decl.Name()) then Placeholder(noName) else e.decl.Name())
    {
      assert e in multiset(renamed);
      var i :| 0 <= i < |renamed| && renamed[i] == e;
      FlattenExact(d, e.decl);
    }
  }

  /** Every listed declaration has an item in the opened list. */
  lemma OpenComplete(d: Definition, noName: string, x: Decl)
    requires Listed(d, x)
    ensures exists e :: e in Open(Some(d), noName).value && e.decl == x
  {
    FlattenExact(d, x);
    var xs := Concat(Blocks(d));
    var i :| 0 <= i < |xs| && xs[i] == x;
    var renamed := Rename(Flatten(d), noName);
    var r := Open(Some(d), noName).value;
    assert renamed[i] in multiset(renamed);
    assert renamed[i] in r;
  }

  /** The window shows item `i` for the query: its lower-cased name contains the lower-cased query. */
  predicate Shows(entries: seq<Entry>, query: string, i: int) {
    0 <= i < |entries| && Contains(Lower(entries[i].name), Lower(query))
  }

  /**
   * `DoSearch`: the positions of the items shown, in list order, and whether
   * any is shown (the search box turns red when none is).
   */
  method DoSearch(entries: seq<Entry>, query: string) returns (shown: seq<nat>, found: bool)
    ensures forall a, b :: 0 <= a < b < |shown| ==> shown[a] < shown[b]
    ensures forall i :: i in shown <==> Shows(entries, query, i)
    ensures found <==> exists i :: Shows(entries, query, i)
    ensures found <==> |shown| > 0
  {
    var search := Lower(query);
    shown := [];
    found := false;
    for i := 0 to |entries|
      invariant forall a, b :: 0 <= a < b < |shown| ==> shown[a] < shown[b]
      invariant forall a :: 0 <= a < |shown| ==> shown[a] < i
      invariant forall k :: k in shown <==> 0 <= k < i && Shows(entries, query, k)
      invariant found <==> |shown| > 0
    {
      if Contains(Lower(entries[i].name), search) {
        found := true;
        shown := shown + [i];
      }
    }
    if found {
      assert Shows(entries, query, shown[0]);
    }
  }

  /** An empty query shows every item. */
  lemma EmptyQueryShowsAll(entries: seq<Entry>, i: nat)
    requires i < |entries|
    ensures Shows(entries, "", i)
  {
    ContainsEmpty(Lower(entries[i].name));
  }

  /** Items shown in list order from a sorted list are still sorted by name. */
  lemma ShownStaySorted(entries: seq<Entry>, shown: seq<nat>)
    requires SortedByName(entries)
    requires forall a :: 0 <= a < |shown| ==> shown[a] < |entries|
    requires forall a, b :: 0 <= a < b < |shown| ==> shown[a] < shown[b]
    ensures SortedByName(seq(|shown|, a requires 0 <= a < |shown| => entries[shown[a]]))
  {
  }

  /** One line of an enum's detail text: the entry's position and a dot, padded to five columns, the entry, a line break. */
  function EnumLine(i: nat, entry: string): string {
    PadRight(DecimalString(i) + ".", 5) + entry + "\r\n"
  }

  /** The detail text of an enum: one line per entry, in order. */
  function EnumDetail(entries: seq<string>): string
    decreases |entries|
  {
    if |entries| == 0 then ""
    else EnumDetail(entries[..|entries| - 1]) + EnumLine(|entries| - 1, entries[|entries| - 1])
  }

  /** The type line of an enum: its number of entries. */
  function EnumType(e: Enum): string {
    "Enum " + DecimalString(|e.entries|) + " entries"
  }

  /** A line starts with the entry's position in decimal, followed by a dot. */
  lemma EnumLineLabel(i: nat, entry: string)
    ensures var k := |DecimalString(i)|;
      k < |EnumLine(i, entry)| && EnumLine(i, entry)[k] == '.'
      && (forall j :: 0 <= j < k ==> '0' <= EnumLine(i, entry)[j] <= '9')
      && DecimalValue(EnumLine(i, entry)[..k]) == i
  {
    var column := DecimalString(i) + ".";
    var line := EnumLine(i, entry);
    var k := |DecimalString(i)|;
    assert line[..|column|] == column;
    assert line[..k] == DecimalString(i);
    DecimalRoundTrip(i);
  }

  /** A line holds exactly one line feed when its entry holds none. */
  lemma EnumLineBreaks(i: nat, entry: string)
    requires '\n' !in entry
    ensures CountChar(EnumLine(i, entry), '\n') == 1
  {
    var column := PadRight(DecimalString(i) + ".", 5);
    assert forall j :: 0 <= j < |column| ==> column[j] != '\n' by {
      forall j | 0 <= j < |column|
        ensures column[j] != '\n'
      {
        if j < |DecimalString(i)| + 1 {
          assert column[j] == (DecimalString(i) + ".")[j];
        }
      }
    }
    CountCharAbsent(column, '\n');
    CountCharAbsent(entry, '\n');
    CountCharConcat(column, entry, '\n');
    CountCharConcat(column + entry, "\r\n", '\n');
    assert CountChar("\r\n", '\n') == 1;
  }

  /** The detail text has one line per entry when no entry holds a line feed. */
  lemma {:induction false} EnumDetailLines(entries: seq<string>)
    requires forall i :: 0 <= i < |entries| ==> '\n' !in entries[i]
    ensures CountChar(EnumDetail(entries), '\n') == |entries|
    decreases |entries|
  {
    if |entries| > 0 {
      var n := |entries| - 1;
      EnumDetailLines(entries[..n]);
      EnumLineBreaks(n, entries[n]);
      CountCharConcat(EnumDetail(entries[..n]), EnumLine(n, entries[n]), '\n');
    }
  }

  /** The type line reads back as the enum's number of entries. */
  lemma EnumTypeCount(e: Enum)
    ensures EnumType(e)[..5] == "Enum "
    ensures DecimalValue(EnumType(e)[5..5 + |DecimalString(|e.entries|)|]) == |e.entries|
  {
    var s := DecimalString(|e.entries|);
    assert EnumType(e)[5..5 + |s|] == s;
    DecimalRoundTrip(|e.entries|);
  }
}

=== FILE: definitions.dfy ===
/**
 * The definition table the condenser produces for a file or a whole include
 * configuration: one ordered sequence per declaration kind, and a sum type
 * `Decl` over the kinds for the places that hand back "some declaration".
 */
module Definitions {

  /** What every declaration carries: its name, its span in the owning file, the file's name without extension. */
  datatype Symbol = Symbol(
    name: string,
    index: int,
    length: int,
    file: string,
    fullName: string,
    commentString: string)

  /** A function with the offset of its closing brace and its local variables. */
  datatype Function = Function(sym: Symbol, endPos: int, funcVariables: seq<Symbol>)

  /** An enum owns the plain names of its entries. */
  datatype Enum = Enum(sym: Symbol, entries: seq<string>)

  /** A method or field of a methodmap or enum struct; the owner is named, not pointed to. */
  datatype Member = Member(sym: Symbol, ownerName: string)

  datatype EnumStruct = EnumStruct(sym: Symbol, methods: seq<Member>, fields: seq<Member>)

  datatype Methodmap = Methodmap(
    sym: Symbol,
    typeName: string,
    inheritedType: string,
    methods: seq<Member>,
    fields: seq<Member>)

  /** One definition table (the condenser's `SMDefinition`). */
  datatype Definition = Definition(
    functions: seq<Function>,
    variables: seq<Symbol>,
    constants: seq<Symbol>,
    defines: seq<Symbol>,
    enums: seq<Enum>,
    enumStructs: seq<EnumStruct>,
    methodmaps: seq<Methodmap>,
    structs: seq<Symbol>,
    typedefs: seq<Symbol>)

  /** Any declaration, tagged with its kind. */
  datatype Decl =
    | FunctionDecl(func: Function)
    | VariableDecl(sym: Symbol)
    | ConstantDecl(sym: Symbol)
    | DefineDecl(sym: Symbol)
    | EnumDecl(enumDecl: Enum)
    | EnumStructDecl(enumStruct: EnumStruct)
    | MethodmapDecl(methodmap: Methodmap)
    | StructDecl(sym: Symbol)
    | TypedefDecl(sym: Symbol)
    | MethodmapMethodDecl(member: Member)
    | MethodmapFieldDecl(member: Member)
    | EnumStructMethodDecl(member: Member)
    | EnumStructFieldDecl(member: Member)
  {
    function Info(): Symbol {
      match this
      case FunctionDecl(f) => f.sym
      case VariableDecl(s) => s
      case ConstantDecl(s) => s
      case DefineDecl(s) => s
      case EnumDecl(e) => e.sym
      case EnumStructDecl(e) => e.sym
      case MethodmapDecl(m) => m.sym
      case StructDecl(s) => s
      case TypedefDecl(s) => s
      case MethodmapMethodDecl(m) => m.sym
      case MethodmapFieldDecl(m) => m.sym
      case EnumStructMethodDecl(m) => m.sym
      case EnumStructFieldDecl(m) => m.sym
    }

    function Name(): string {
      Info().name
    }
  }

  /** The table with nothing in it. */
  const Empty := Definition([], [], [], [], [], [], [], [], [])
}

=== FILE: editor_text.dfy ===
/**
 * The editor's small text helpers: the selection-word check and the
 * highlight decision of the regular timer, the occurrence scan of the
 * selection colorizer, the `//` comment toggle on a line, and the clamping of
 * the go-to-line / go-to-offset popup.
 */
module EditorText {
  import opened Wrappers
  import opened Text

  /** A character the selection highlighter accepts: `[a-zA-Z0-9_]`. */
  predicate IsWordChar(c: char) {
    ('a' <= c <= 'z') || ('A' <= c <= 'Z') || ('0' <= c <= '9') || c == '_'
  }

  /** Every character is a word character (the empty string included). */
  predicate IsWord(s: string) {
    forall i :: 0 <= i < |s| ==> IsWordChar(s[i])
  }

  /** `IsValidSearchSelectionString`: scans until the first rejected character. */
  method IsValidSearchSelectionString(s: string) returns (b: bool)
    ensures b <==> IsWord(s)
  {
    for i := 0 to |s|
      invariant forall j :: 0 <= j < i ==> IsWordChar(s[j])
    {
      if !IsWordChar(s[i]) {
        return false;
      }
    }
    return true;
  }

  /** Longest selection (exclusive) the timer still highlights. */
  const MaxHighlightLength := 50

  /**
   * The timer's decision for the current selection: the string to highlight,
   * or `None` when highlighting is switched off and the string cleared.
   */
  function HighlightFor(selection: string): (r: Option<string>)
    ensures r.Some? <==> 0 < |selection| < MaxHighlightLength && IsWord(selection)
    ensures r.Some? ==> r.value == selection
  {
    if 0 < |selection| < MaxHighlightLength && IsWord(selection) then Some(selection) else None
  }

  /** A highlighted selection is never blank, so the colorizer never returns early for it. */
  lemma HighlightedIsNotBlank(selection: string)
    requires HighlightFor(selection).Some?
    ensures !IsBlank(selection)
  {
    assert !IsWhiteSpace(selection[0]);
  }

  /** Positions are strictly increasing. */
  predicate StrictlyIncreasing(xs: seq<nat>) {
    forall i, j :: 0 <= i < j < |xs| ==> xs[i] < xs[j]
  }

  /**
   * `ColorizeSelection.ColorizeLine`: the line-relative start of every piece
   * painted, found by repeated ordinal `IndexOf` from one past the last hit,
   * so overlapping occurrences are all painted.
   */
  method ColorizeLine(text: string, highlight: bool, selection: string) returns (hits: seq<nat>)
    ensures !highlight || IsBlank(selection) ==> hits == []
    ensures StrictlyIncreasing(hits)
    ensures highlight && !IsBlank(selection) ==>
      forall k :: k in hits <==> OccursAt(text, selection, k)
  {
    hits := [];
    if !highlight || IsBlank(selection) {
      return;
    }
    var start := 0;
    var index := IndexOf(text, selection, start);
    while index.Some?
      invariant start <= |text|
      invariant index == IndexOf(text, selection, start)
      invariant StrictlyIncreasing(hits)
      invariant forall a :: 0 <= a < |hits| ==> hits[a] < start
      invariant forall k :: 0 <= k < start ==> (k in hits <==> OccursAt(text, selection, k))
      decreases |text| - start
    {
      var i := index.value;
      hits := hits + [i];
      start := i + 1;
      index := IndexOf(text, selection, start);
    }
    forall k | k in hits
      ensures k < start
    {
      var a :| 0 <= a < |hits| && hits[a] == k;
    }
  }

  /** The line after `ToggleCommentOnLine`: `//` removed right after the indentation, or inserted there. */
  function ToggleComment(line: string): (r: string)
    ensures IsCommented(line) ==>
      r == line[..LeadingWhiteSpace(line)] + line[LeadingWhiteSpace(line) + 2..]
    ensures !IsCommented(line) ==>
      r == line[..LeadingWhiteSpace(line)] + "//" + line[LeadingWhiteSpace(line)..]
  {
    var lead := LeadingWhiteSpace(line);
    var trimmed := Trim(line);
    if |trimmed| > 1 && trimmed[0] == '/' && trimmed[1] == '/' then
      line[..lead] + line[lead + 2..]
    else
      line[..lead] + "//" + line[lead..]
  }

  /** The line's first non-blank characters are `//`. */
  predicate IsCommented(line: string) {
    var lead := LeadingWhiteSpace(line);
    lead + 2 <= |line| && line[lead] == '/' && line[lead + 1] == '/'
  }

  /** The toggle's test on the trimmed line is the same as looking behind the indentation. */
  lemma TrimmedStartsWithComment(line: string)
    ensures (|Trim(line)| > 1 && Trim(line)[0] == '/' && Trim(line)[1] == '/') <==> IsCommented(line)
  {
    var lead := LeadingWhiteSpace(line);
    var t := Trim(line);
    if IsCommented(line) {
      assert !IsBlank(line) by { assert !IsWhiteSpace(line[lead]); }
      // the trimmed text ends at a non-blank character at or after `lead + 1`
      var tail := TrailingWhiteSpace(line[lead..]);
      assert !IsWhiteSpace(line[lead..][1]);
      assert tail <= |line[lead..]| - 2;
    }
  }

  /** Commenting a line and toggling again gives the line back. */
  lemma {:induction false} UncommentAfterComment(line: string)
    requires !IsCommented(line)
    ensures ToggleComment(ToggleComment(line)) == line
  {
    TrimmedStartsWithComment(line);
    var lead := LeadingWhiteSpace(line);
    var once := ToggleComment(line);
    assert once == line[..lead] + "//" + line[lead..];
    LeadingAfterInsert(line, lead);
    assert IsCommented(once);
    TrimmedStartsWithComment(once);
    RemoveInserted(line, lead);
  }

  /** Taking out the two characters just inserted restores the string. */
  lemma RemoveInserted(line: string, lead: nat)
    requires lead <= |line|
    ensures var once := line[..lead] + "//" + line[lead..];
      once[..lead] + once[lead + 2..] == line
  {
    var once := line[..lead] + "//" + line[lead..];
    assert once[..lead] == line[..lead];
    assert once[lead + 2..] == line[lead..];
  }

  /** Inserting `//` at the indentation leaves the indentation as it was. */
  lemma LeadingAfterInsert(line: string, lead: nat)
    requires lead == LeadingWhiteSpace(line)
    ensures LeadingWhiteSpace(line[..lead] + "//" + line[lead..]) == lead
  {
    var once := line[..lead] + "//" + line[lead..];
    LeadingWhiteSpaceExact(once, lead);
  }

  /** A prefix of white space followed by a non-blank character fixes the count of leading white space. */
  lemma {:induction false} LeadingWhiteSpaceExact(s: string, n: nat)
    requires n < |s|
    requires forall i :: 0 <= i < n ==> IsWhiteSpace(s[i])
    requires !IsWhiteSpace(s[n])
    ensures LeadingWhiteSpace(s) == n
  {
  }

  /** After the `//` of a commented line comes neither white space nor another `//`. */
  predicate PlainAfterComment(line: string)
    requires IsCommented(line)
  {
    var lead := LeadingWhiteSpace(line);
    lead + 2 == |line|
    || (!IsWhiteSpace(line[lead + 2]) && !(lead + 4 <= |line| && line[lead + 2] == '/' && line[lead + 3] == '/'))
  }

  /** Removing the `//` of such a line keeps the indentation and leaves an uncommented line. */
  lemma UncommentKeepsIndentation(line: string)
    requires IsCommented(line) && PlainAfterComment(line)
    ensures var lead := LeadingWhiteSpace(line);
      var once := line[..lead] + line[lead + 2..];
      LeadingWhiteSpace(once) == lead && !IsCommented(once)
  {
    var lead := LeadingWhiteSpace(line);
    var once := line[..lead] + line[lead + 2..];
    if lead + 2 < |line| {
      LeadingWhiteSpaceExact(once, lead);
    } else {
      AllWhiteSpaceLeading(once);
    }
  }

  /** In a blank string every character is leading white space. */
  lemma AllWhiteSpaceLeading(s: string)
    requires IsBlank(s)
    ensures LeadingWhiteSpace(s) == |s|
  {
  }

  /** Uncommenting such a line and toggling again gives the line back. */
  lemma {:induction false} CommentAfterUncomment(line: string)
    requires IsCommented(line) && PlainAfterComment(line)
    ensures ToggleComment(ToggleComment(line)) == line
  {
    TrimmedStartsWithComment(line);
    var lead := LeadingWhiteSpace(line);
    var once := ToggleComment(line);
    assert once == line[..lead] + line[lead + 2..];
    UncommentKeepsIndentation(line);
    TrimmedStartsWithComment(once);
    ReinsertRemoved(line, lead);
  }

  /** Putting back the two `/` characters just taken out restores the string. */
  lemma ReinsertRemoved(line: string, lead: nat)
    requires lead + 2 <= |line| && line[lead] == '/' && line[lead + 1] == '/'
    ensures var once := line[..lead] + line[lead + 2..];
      once[..lead] + "//" + once[lead..] == line
  {
    var once := line[..lead] + line[lead + 2..];
    assert once[..lead] == line[..lead];
    assert once[lead..] == line[lead + 2..];
    assert line[lead..lead + 2] == "//";
    Slices(line, lead, lead + 2, lead + 2);
  }

  /** A space after the `//` is not restored: `// x` toggles to ` x` and then to ` //x`. */
  lemma SpaceAfterCommentIsNotRestored()
    ensures ToggleComment(ToggleComment("// x")) == " //x"
  {
    UncommentSpaced();
    CommentSpaced();
  }

  lemma UncommentSpaced()
    ensures ToggleComment("// x") == " x"
  {
    var line := "// x";
    LeadingWhiteSpaceExact(line, 0);
    assert IsCommented(line);
    assert line[2..] == " x";
  }

  lemma CommentSpaced()
    ensures ToggleComment(" x") == " //x"
  {
    var line := " x";
    LeadingWhiteSpaceExact(line, 1);
    assert !IsCommented(line);
    assert line[..1] + "//" + line[1..] == " //x";
  }

  /** Which popup field is checked. */
  datatype JumpMode = LineJump | OffsetJump

  /** Where the popup sends the caret: a line number, an offset, or nowhere when the text is not a number. */
  datatype Jump = NoJump | ToLine(line: int) | ToOffset(offset: int)

  /** `Math.Max(low, Math.Min(v, high))`. */
  function Clamp(v: int, low: int, high: int): (r: int)
    requires low <= high
    ensures low <= r <= high
    ensures low <= v <= high ==> r == v
    ensures v < low ==> r == low
    ensures v > high ==> r == high
  {
    if v < low then low else if v > high then high else v
  }

  /**
   * `JumpToNumber`: the parsed number (`None` when `int.TryParse` fails) is
   * clamped to the document's lines (numbered from one) or to its offsets.
   */
  function JumpTarget(parsed: Option<int>, mode: JumpMode, lineCount: nat, textLength: nat): (r: Jump)
    requires lineCount >= 1
    ensures parsed.None? <==> r.NoJump?
    ensures r.ToLine? ==> mode.LineJump? && 1 <= r.line <= lineCount
    ensures r.ToOffset? ==> mode.OffsetJump? && 0 <= r.offset <= textLength
    ensures parsed.Some? && mode.LineJump? && 1 <= parsed.value <= lineCount ==> r == ToLine(parsed.value)
    ensures parsed.Some? && mode.OffsetJump? && 0 <= parsed.value <= textLength ==> r == ToOffset(parsed.value)
  {
    match parsed
    case None => NoJump
    case Some(num) =>
      match mode
      case LineJump => ToLine(Clamp(num, 1, lineCount))
      case OffsetJump => ToOffset(Clamp(num, 0, textLength))
  }

  /** Typing the number the popup jumped to jumps to the same place. */
  lemma JumpTargetIdempotent(num: int, mode: JumpMode, lineCount: nat, textLength: nat)
    requires lineCount >= 1
    ensures var r := JumpTarget(Some(num), mode, lineCount, textLength);
      JumpTarget(Some(if r.ToLine? then r.line else r.offset), mode, lineCount, textLength) == r
  {
  }

  /** A larger number never jumps to an earlier place. */
  lemma JumpTargetMonotone(a: int, b: int, mode: JumpMode, lineCount: nat, textLength: nat)
    requires lineCount >= 1
    requires a <= b
    ensures mode.LineJump? ==>
      JumpTarget(Some(a), mode, lineCount, textLength).line <= JumpTarget(Some(b), mode, lineCount, textLength).line
    ensures mode.OffsetJump? ==>
      JumpTarget(Some(a), mode, lineCount, textLength).offset <= JumpTarget(Some(b), mode, lineCount, textLength).offset
  {
  }
}

=== FILE: find_replace.dfy ===
/**
 * The find/replace panel's traversal over the open editors: which editors an
 * action works on and where it starts, the wrap-around search that looks at
 * the rest of the starting editor first and its beginning last, the single
 * replacement at the first hit, and the replace-all splice that works from
 * the last match back to the first. The regex engine is a parameter: the
 * first match in a text, or all matches with their expanded replacements.
 */
module FindReplace {
  import opened Wrappers
  import opened Text
  import opened SearchPattern

  /** An editor as the panel sees it: an identity, its text and its caret. */
  datatype Buffer = Buffer(id: nat, text: string, caret: int)

  /** A regex match: where it starts in the searched text and how long it is. */
  datatype Match = Match(index: nat, length: nat)

  /** `ValueUnderMap`: `value` reduced into `[0, bound)` by repeated subtraction; negative values are returned as they are. */
  method ValueUnderMap(value: int, bound: int) returns (r: int)
    requires bound > 0
    ensures value >= 0 ==> r == value % bound
    ensures value >= 0 ==> 0 <= r < bound
    ensures value < 0 ==> r == value
  {
    r := value;
    ghost var q := 0;
    while r >= bound
      invariant r == value - q * bound
      invariant value >= 0 ==> r >= 0 && q >= 0
      invariant value < 0 ==> r == value
      decreases r
    {
      r := r - bound;
      q := q + 1;
    }
    if value >= 0 {
      ModUnique(value, bound, q, r);
    }
  }

  /** A quotient and remainder in range are the ones Euclidean division gives. */
  lemma ModUnique(value: int, bound: int, q: int, r: int)
    requires bound > 0 && 0 <= r < bound && value == q * bound + r
    ensures value % bound == r
  {
    var q0 := value / bound;
    assert (q - q0) * bound == value % bound - r;
    MultipleBetween(q - q0, bound);
  }

  /** The only multiple of `b` strictly between `-b` and `b` is zero. */
  lemma MultipleBetween(a: int, b: int)
    requires b > 0 && -b < a * b < b
    ensures a == 0
  {
    if a > 0 {
      MultipleAtLeast(a, b);
    } else if a < 0 {
      MultipleAtLeast(-a, b);
    }
  }

  lemma MultipleAtLeast(a: int, b: int)
    requires a >= 1 && b > 0
    ensures a * b >= b
  {
  }

  /** The last position of the editor with identity `id`, if any. */
  method LastPositionOf(all: seq<Buffer>, id: nat) returns (r: Option<nat>)
    ensures r.Some? ==> r.value < |all| && all[r.value].id == id
    ensures r.Some? ==> forall j :: r.value < j < |all| ==> all[j].id != id
    ensures r.None? <==> forall j :: 0 <= j < |all| ==> all[j].id != id
  {
    r := None;
    for i := 0 to |all|
      invariant r.Some? ==> r.value < i && all[r.value].id == id
      invariant r.Some? ==> forall j :: r.value < j < i ==> all[j].id != id
      invariant r.None? <==> forall j :: 0 <= j < i ==> all[j].id != id
    {
      if all[i].id == id {
        r := Some(i);
      }
    }
  }

  /**
   * `GetEditorElementsForFRAction`: the current editor alone (nothing when
   * there is none, which every caller treats as "do nothing"), or all editors
   * starting at the last one that is the docked pane's selected content.
   */
  method EditorsForAction(currentOnly: bool, current: Option<Buffer>, all: seq<Buffer>, selected: Option<nat>)
    returns (editors: seq<Buffer>, start: nat)
    ensures currentOnly ==> start == 0 && editors == (if current.Some? then [current.value] else [])
    ensures !currentOnly ==> editors == all
    ensures !currentOnly && selected.Some? && (exists j :: 0 <= j < |all| && all[j].id == selected.value) ==>
      start < |all| && all[start].id == selected.value && forall j :: start < j < |all| ==> all[j].id != selected.value
    ensures !currentOnly && (selected.None? || forall j :: 0 <= j < |all| ==> all[j].id != selected.value) ==>
      start == 0
    ensures |editors| > 0 ==> start < |editors|
  {
    start := 0;
    if currentOnly {
      editors := if current.Some? then [current.value] else [];
    } else {
      editors := all;
      if selected.Some? {
        var last := LastPositionOf(all, selected.value);
        if last.Some? {
          start := last.value;
        }
      }
    }
  }

  /** Index of the editor visited at step `k` of a search over `n` editors from `start`. */
  function StepEditor(n: nat, start: nat, k: nat): (e: nat)
    requires start < n && k <= n
    ensures e < n
    ensures e == (start + k) % n
  {
    var v := start + k;
    ModUnique(v, n, if v < n then 0 else 1, if v < n then v else v - n);
    if v < n then v else v - n
  }

  /** The starting caret with a negative offset raised to zero. */
  function StartCaret(b: Buffer): (c: nat)
    ensures b.caret >= 0 ==> c == b.caret
  {
    if b.caret < 0 then 0 else b.caret
  }

  /** The caret never lies past the end of its editor's text. */
  predicate CaretInText(b: Buffer) {
    b.caret <= |b.text|
  }

  /** The text step `k` searches: the starting editor's rest, other editors whole, then the starting editor's beginning. */
  function StepText(editors: seq<Buffer>, start: nat, k: nat): string
    requires start < |editors| && k <= |editors| && CaretInText(editors[start])
  {
    var b := editors[start];
    if k == 0 then b.text[StartCaret(b)..]
    else if k == |editors| then (if StartCaret(b) == 0 then "" else b.text[..StartCaret(b)])
    else editors[StepEditor(|editors|, start, k)].text
  }

  /** What is added to a match's index at step `k` to place it in its editor: the raw caret on the first step. */
  function StepOffset(editors: seq<Buffer>, start: nat, k: nat): int
    requires start < |editors|
  {
    if k == 0 then editors[start].caret else 0
  }

  /** The match of step `k`: none for a blank text, otherwise the engine's first match. */
  function StepMatch(editors: seq<Buffer>, start: nat, k: nat, p: Pattern, firstMatch: (Pattern, string) -> Option<Match>): Option<Match>
    requires start < |editors| && k <= |editors| && CaretInText(editors[start])
  {
    var t := StepText(editors, start, k);
    if IsBlank(t) then None else firstMatch(p, t)
  }

  /** The engine reports matches inside the text it searched. */
  ghost predicate MatchesInText(firstMatch: (Pattern, string) -> Option<Match>) {
    forall p, t :: firstMatch(p, t).Some? ==> firstMatch(p, t).value.index + firstMatch(p, t).value.length <= |t|
  }

  datatype SearchResult =
    | NotRun
    | NothingFound
    | Found(step: nat, editor: nat, selectionStart: int, selectionLength: nat, caret: int)

  /**
   * `Search`: steps `0..n` over editors `start, start+1, …` modulo `n`; the
   * first step with a match selects it, shifted into its editor's
   * coordinates, and puts the caret after it.
   */
  method Search(editors: seq<Buffer>, start: nat, regex: Option<Pattern>, firstMatch: (Pattern, string) -> Option<Match>)
    returns (r: SearchResult)
    requires |editors| > 0 ==> start < |editors| && CaretInText(editors[start])
    requires MatchesInText(firstMatch)
    ensures r.NotRun? <==> |editors| == 0 || regex.None?
    ensures r.NothingFound? <==>
      |editors| > 0 && regex.Some? && forall k :: 0 <= k <= |editors| ==> StepMatch(editors, start, k, regex.value, firstMatch).None?
    ensures r.Found? ==> |editors| > 0 && regex.Some? && r.step <= |editors|
    ensures r.Found? ==> forall k :: 0 <= k < r.step ==> StepMatch(editors, start, k, regex.value, firstMatch).None?
    ensures r.Found? ==>
      var m := StepMatch(editors, start, r.step, regex.value, firstMatch);
      && m.Some?
      && r.editor == StepEditor(|editors|, start, r.step)
      && r.selectionStart == m.value.index + StepOffset(editors, start, r.step)
      && r.selectionLength == m.value.length
      && r.caret == r.selectionStart + r.selectionLength
    ensures r.Found? && (r.step > 0 || editors[start].caret >= 0) ==>
      0 <= r.selectionStart && r.selectionStart + r.selectionLength <= |editors[r.editor].text|
  {
    if |editors| == 0 || regex.None? {
      return NotRun;
    }
    var p := regex.value;
    var n := |editors|;
    for k := 0 to n + 1
      invariant forall j :: 0 <= j < k ==> StepMatch(editors, start, j, p, firstMatch).None?
    {
      var index := ValueUnderMap(start + k, n);
      var searchText := StepText(editors, start, k);
      var addToOffset := StepOffset(editors, start, k);
      if !IsBlank(searchText) {
        var m := firstMatch(p, searchText);
        if m.Some? {
          var selection := m.value.index + addToOffset;
          assert StepMatch(editors, start, k, p, firstMatch) == m;
          if k > 0 || editors[start].caret >= 0 {
            FoundInEditor(editors, start, k, m.value);
          }
          return Found(k, index, selection, m.value.length, selection + m.value.length);
        }
      }
    }
    return NothingFound;
  }

  /** A match inside step `k`'s text, shifted by the step's offset, lies inside the editor visited at that step. */
  lemma FoundInEditor(editors: seq<Buffer>, start: nat, k: nat, m: Match)
    requires start < |editors| && k <= |editors| && CaretInText(editors[start])
    requires m.index + m.length <= |StepText(editors, start, k)|
    requires k > 0 || editors[start].caret >= 0
    ensures 0 <= m.index + StepOffset(editors, start, k)
    ensures m.index + StepOffset(editors, start, k) + m.length <= |editors[StepEditor(|editors|, start, k)].text|
  {
  }

  /** The first and last steps visit the starting editor, every other editor is visited by exactly one step in between. */
  lemma VisitOrder(n: nat, start: nat)
    requires start < n
    ensures StepEditor(n, start, 0) == start && StepEditor(n, start, n) == start
    ensures forall k :: 0 < k < n ==> StepEditor(n, start, k) != start
    ensures forall e :: 0 <= e < n && e != start ==> 0 < StepOf(n, start, e) < n && StepEditor(n, start, StepOf(n, start, e)) == e
    ensures forall k1, k2 :: 0 < k1 < n && 0 < k2 < n && StepEditor(n, start, k1) == StepEditor(n, start, k2) ==> k1 == k2
  {
    forall k | 0 < k < n
      ensures StepEditor(n, start, k) != start
    {
      StepDistinct(n, start, 0, k);
    }
    forall k1, k2 | 0 < k1 < n && 0 < k2 < n && k1 != k2
      ensures StepEditor(n, start, k1) != StepEditor(n, start, k2)
    {
      if k1 < k2 {
        StepDistinct(n, start, k1, k2);
      } else {
        StepDistinct(n, start, k2, k1);
      }
    }
  }

  /** The step at which a search from `start` visits editor `e`. */
  function StepOf(n: nat, start: nat, e: nat): nat
    requires start < n && e < n
  {
    if e >= start then e - start else e + n - start
  }

  /** Two steps less than `n` apart visit different editors. */
  lemma StepDistinct(n: nat, start: nat, k1: nat, k2: nat)
    requires start < n && k1 < k2 < n
    ensures StepEditor(n, start, k1) != StepEditor(n, start, k2)
  {
  }

  /** The last step's text followed by the first step's text is the starting editor's whole text. */
  lemma StartingEditorCovered(editors: seq<Buffer>, start: nat)
    requires start < |editors| && CaretInText(editors[start])
    ensures StepText(editors, start, |editors|) + StepText(editors, start, 0) == editors[start].text
    ensures |StepText(editors, start, |editors|)| + |StepText(editors, start, 0)| == |editors[start].text|
  {
    var b := editors[start];
    assert b.text[..StartCaret(b)] + b.text[StartCaret(b)..] == b.text;
  }

  datatype ReplaceResult =
    | ReplaceNotRun
    | ReplaceFoundNothing
    | Replaced(step: nat, editor: nat, text: string, selectionStart: nat, selectionLength: nat, caret: nat, reportedOffset: int)

  /**
   * The offset the status line should report for a replacement: where the
   * replaced text starts in its editor (`ReplacedOffsetIndexesReplacement`).
   */
  function ReplacedOffset(m: Match, addToOffset: int): int {
    m.index + addToOffset
  }

  /**
   * The offset the source formats into the status line after a single
   * replacement: the window's minimum height plus the step's offset, which
   * does not depend on the match at all.
   */
  function ReplacedOffsetAsWritten(minHeight: int, m: Match, addToOffset: int): int {
    minHeight + addToOffset
  }

  /**
   * After the buffer's span at the match is replaced by `result`, the
   * corrected offset is where `result` starts: the text before it and the
   * text after the replacement are the buffer's own.
   */
  lemma ReplacedOffsetIndexesReplacement(before: string, m: Match, addToOffset: int, result: string)
    requires 0 <= m.index + addToOffset && m.index + addToOffset + m.length <= |before|
    ensures var at := m.index + addToOffset;
      var after := before[..at] + result + before[at + m.length..];
      var o := ReplacedOffset(m, addToOffset);
      && 0 <= o && o + |result| <= |after|
      && after[o..o + |result|] == result
      && after[..o] == before[..o]
      && after[o + |result|..] == before[o + m.length..]
  {
    var at := m.index + addToOffset;
    var after := before[..at] + result + before[at + m.length..];
    assert after[..at] == before[..at];
    assert after[at..at + |result|] == result;
    assert after[at + |result|..] == before[at + m.length..];
  }

  /** Whatever the minimum height, some match is reported at an offset other than its own. */
  lemma ReplacedOffsetAsWrittenMisreports(minHeight: int, addToOffset: int)
    ensures exists m: Match :: ReplacedOffsetAsWritten(minHeight, m, addToOffset) != ReplacedOffset(m, addToOffset)
  {
    var m := Match(if minHeight == 0 then 1 else 0, 0);
    assert ReplacedOffsetAsWritten(minHeight, m, addToOffset) != ReplacedOffset(m, addToOffset);
  }

  /**
   * `Replace`: the traversal of `Search`; at the first hit the match is
   * replaced by its expansion, which is then selected with the caret after
   * it. `expand` stands for `Match.Result` of the replace box's text on the
   * searched text, and `minHeight` for the window's `MinHeight`, which the
   * status line reports as the code stands.
   */
  method Replace(
    editors: seq<Buffer>, start: nat, regex: Option<Pattern>,
    firstMatch: (Pattern, string) -> Option<Match>, expand: (string, Match) -> string, minHeight: int)
    returns (r: ReplaceResult)
    requires |editors| > 0 ==> start < |editors| && CaretInText(editors[start]) && editors[start].caret >= 0
    requires MatchesInText(firstMatch)
    ensures r.ReplaceNotRun? <==> |editors| == 0 || regex.None?
    ensures r.ReplaceFoundNothing? <==>
      |editors| > 0 && regex.Some? && forall k :: 0 <= k <= |editors| ==> StepMatch(editors, start, k, regex.value, firstMatch).None?
    ensures r.Replaced? ==> |editors| > 0 && regex.Some? && r.step <= |editors|
    ensures r.Replaced? ==> forall k :: 0 <= k < r.step ==> StepMatch(editors, start, k, regex.value, firstMatch).None?
    ensures r.Replaced? ==>
      StepMatch(editors, start, r.step, regex.value, firstMatch).Some? && r.editor == StepEditor(|editors|, start, r.step)
    ensures r.Replaced? ==>
      var m := StepMatch(editors, start, r.step, regex.value, firstMatch);
      var before := editors[r.editor].text;
      var result := expand(StepText(editors, start, r.step), m.value);
      && r.selectionStart == ReplacedOffset(m.value, StepOffset(editors, start, r.step))
      && r.selectionStart + m.value.length <= |before|
      && r.text == before[..r.selectionStart] + result + before[r.selectionStart + m.value.length..]
      && r.text[r.selectionStart..r.selectionStart + |result|] == result
      && r.selectionLength == |result|
      && r.caret == r.selectionStart + |result|
      && r.reportedOffset == ReplacedOffsetAsWritten(minHeight, m.value, StepOffset(editors, start, r.step))
      && (result == before[r.selectionStart..r.selectionStart + m.value.length] ==> r.text == before)
  {
    var found := Search(editors, start, regex, firstMatch);
    match found
    case NotRun => r := ReplaceNotRun;
    case NothingFound => r := ReplaceFoundNothing;
    case Found(k, e, selection, length, _) =>
      var m := StepMatch(editors, start, k, regex.value, firstMatch).value;
      var result := expand(StepText(editors, start, k), m);
      var before := editors[e].text;
      var after := before[..selection] + result + before[selection + length..];
      Slices(before, selection, selection + length, selection + length);
      ReplacedOffsetIndexesReplacement(before, m, StepOffset(editors, start, k), result);
      r := Replaced(k, e, after, selection, |result|, selection + |result|,
        ReplacedOffsetAsWritten(minHeight, m, StepOffset(editors, start, k)));
  }

  /** One match of a replace-all: its span in the editor's text and the expanded replacement. */
  datatype Edit = Edit(index: nat, length: nat, replacement: string)

  /** The engine's matches of one text: inside it, in order, not overlapping. */
  predicate ValidEdits(text: string, edits: seq<Edit>) {
    && (forall j :: 0 <= j < |edits| ==> edits[j].index + edits[j].length <= |text|)
    && (forall j, k :: 0 <= j < k < |edits| ==> edits[j].index + edits[j].length <= edits[k].index)
  }

  /** Where the text that `edits` leaves alone stops: the first edit, or the end of the text. */
  function Horizon(text: string, edits: seq<Edit>): nat {
    if |edits| == 0 then |text| else edits[0].index
  }

  /** The text from `from` on with `edits` applied left to right: the reference meaning of the replacement. */
  function Substitute(text: string, edits: seq<Edit>, from: nat): string
    requires ValidEdits(text, edits)
    requires from <= Horizon(text, edits) <= |text|
    decreases |edits|
  {
    if |edits| == 0 then text[from..]
    else
      var e := edits[0];
      text[from..e.index] + e.replacement + Substitute(text, edits[1..], e.index + e.length)
  }

  /** Leaving a stretch of untouched text out of the scan and putting it back in front gives the same result. */
  lemma {:induction false} SubstituteFrom(text: string, edits: seq<Edit>, from: nat, mid: nat)
    requires ValidEdits(text, edits)
    requires from <= mid <= Horizon(text, edits) <= |text|
    ensures Substitute(text, edits, from) == text[from..mid] + Substitute(text, edits, mid)
  {
    if |edits| == 0 {
      Slices(text, from, mid, |text|);
    } else {
      SubstituteBeforeEdit(text, edits, from, mid);
    }
  }

  /** `SubstituteFrom` when an edit follows: the untouched stretch is the front of the text before the first edit. */
  lemma {:induction false} SubstituteBeforeEdit(text: string, edits: seq<Edit>, from: nat, mid: nat)
    requires ValidEdits(text, edits) && |edits| > 0
    requires from <= mid <= edits[0].index
    ensures Substitute(text, edits, from) == text[from..mid] + Substitute(text, edits, mid)
  {
    var e := edits[0];
    var rest := AfterFirst(text, edits);
    SubstituteUnfold(text, edits, from);
    SubstituteUnfold(text, edits, mid);
    Slices(text, from, mid, e.index);
    Associate(text[from..mid], text[mid..e.index], rest);
  }

  /** The substitution from the first edit on. */
  function AfterFirst(text: string, edits: seq<Edit>): string
    requires ValidEdits(text, edits) && |edits| > 0
  {
    ValidEditsTail(text, edits);
    edits[0].replacement + Substitute(text, edits[1..], edits[0].index + edits[0].length)
  }

  /** The substitution is the untouched front followed by the substitution from the first edit on. */
  lemma SubstituteUnfold(text: string, edits: seq<Edit>, from: nat)
    requires ValidEdits(text, edits) && |edits| > 0
    requires from <= edits[0].index
    ensures Substitute(text, edits, from) == text[from..edits[0].index] + AfterFirst(text, edits)
  {
  }

  /** Concatenation is associative. */
  lemma Associate(a: string, b: string, c: string)
    ensures (a + b) + c == a + (b + c)
  {
  }

  /** The tail of a valid match list is valid and starts after the first match. */
  lemma ValidEditsTail(text: string, edits: seq<Edit>)
    requires ValidEdits(text, edits) && |edits| > 0
    ensures ValidEdits(text, edits[1..])
    ensures edits[0].index + edits[0].length <= Horizon(text, edits[1..]) <= |text|
  {
  }

  /** A suffix of a valid match list is valid. */
  lemma ValidEditsSuffix(text: string, edits: seq<Edit>, j: nat)
    requires ValidEdits(text, edits) && j <= |edits|
    ensures ValidEdits(text, edits[j..])
    ensures Horizon(text, edits[j..]) <= |text|
  {
  }

  /**
   * The inner loop of `ReplaceAll` on one editor: the matches are replaced
   * from the last to the first, so the offsets of the ones still to come stay
   * valid; the result is the left-to-right substitution.
   */
  method ReplaceFromLast(text: string, edits: seq<Edit>) returns (r: string)
    requires ValidEdits(text, edits)
    ensures r == Substitute(text, edits, 0)
  {
    r := text;
    var j := |edits|;
    ValidEditsSuffix(text, edits, j);
    assert text[..|text|] + text[|text|..] == text;
    while j > 0
      invariant 0 <= j <= |edits|
      invariant ValidEdits(text, edits[j..])
      invariant Horizon(text, edits[j..]) <= |text|
      invariant r == text[..Horizon(text, edits[j..])] + Substitute(text, edits[j..], Horizon(text, edits[j..]))
      decreases j
    {
      var e := edits[j - 1];
      ValidEditsSuffix(text, edits, j - 1);
      SpliceStep(text, edits, j, r);
      r := r[..e.index] + e.replacement + r[e.index + e.length..];
      j := j - 1;
    }
    SubstituteFrom(text, edits, 0, Horizon(text, edits));
  }

  /** Replacing match `j - 1` in the partly replaced text extends the substituted suffix by one match. */
  lemma SpliceStep(text: string, edits: seq<Edit>, j: nat, r: string)
    requires ValidEdits(text, edits) && 0 < j <= |edits|
    requires r == text[..Horizon(text, edits[j..])] + Substitute(text, edits[j..], Horizon(text, edits[j..]))
    ensures var e := edits[j - 1];
      e.index + e.length <= |r|
      && r[..e.index] + e.replacement + r[e.index + e.length..] ==
         text[..Horizon(text, edits[j - 1..])] + Substitute(text, edits[j - 1..], Horizon(text, edits[j - 1..]))
  {
    var e := edits[j - 1];
    var h := Horizon(text, edits[j..]);
    ValidEditsSuffix(text, edits, j);
    ValidEditsSuffix(text, edits, j - 1);
    assert edits[j - 1..][1..] == edits[j..];
    assert e.index + e.length <= h;
    var rest := Substitute(text, edits[j..], h);
    assert r[..e.index] == text[..e.index];
    assert r[e.index + e.length..] == text[e.index + e.length..h] + rest;
    SubstituteFrom(text, edits[j..], e.index + e.length, h);
    assert Horizon(text, edits[j - 1..]) == e.index;
    assert Substitute(text, edits[j - 1..], e.index) ==
      text[e.index..e.index] + e.replacement + Substitute(text, edits[j..], e.index + e.length);
  }

  /** The match's replacement is the text it matched. */
  predicate KeepsText(text: string, e: Edit) {
    e.index + e.length <= |text| && e.replacement == text[e.index..e.index + e.length]
  }

  lemma KeepsTextTail(text: string, edits: seq<Edit>)
    requires |edits| > 0 && forall j :: 0 <= j < |edits| ==> KeepsText(text, edits[j])
    ensures forall j :: 0 <= j < |edits[1..]| ==> KeepsText(text, edits[1..][j])
  {
  }

  /** Replacing every match by the text it matched changes nothing. */
  lemma {:induction false} SubstituteIdentity(text: string, edits: seq<Edit>, from: nat)
    requires ValidEdits(text, edits)
    requires from <= Horizon(text, edits) <= |text|
    requires forall j :: 0 <= j < |edits| ==> KeepsText(text, edits[j])
    ensures Substitute(text, edits, from) == text[from..]
    decreases |edits|
  {
    if |edits| > 0 {
      var e := edits[0];
      var tail := edits[1..];
      var next := e.index + e.length;
      ValidEditsTail(text, edits);
      KeepsTextTail(text, edits);
      SubstituteIdentity(text, tail, next);
      assert e.replacement == text[e.index..next] by {
        assert KeepsText(text, e);
      }
      calc {
        Substitute(text, edits, from);
        { SubstituteUnfold(text, edits, from); }
        text[from..e.index] + AfterFirst(text, edits);
        text[from..e.index] + (text[e.index..next] + text[next..]);
        { Associate(text[from..e.index], text[e.index..next], text[next..]); }
        text[from..e.index] + text[e.index..next] + text[next..];
        { Slices(text, from, e.index, next); }
        text[from..];
      }
    }
  }

  /** Sum of the length changes of the matches. */
  function Growth(edits: seq<Edit>): int {
    if |edits| == 0 then 0 else |edits[0].replacement| - edits[0].length + Growth(edits[1..])
  }

  /** The replaced text is as long as the original plus each replacement's change in length. */
  lemma {:induction false} SubstituteLength(text: string, edits: seq<Edit>, from: nat)
    requires ValidEdits(text, edits)
    requires from <= Horizon(text, edits) <= |text|
    ensures |Substitute(text, edits, from)| == |text| - from + Growth(edits)
    decreases |edits|
  {
    if |edits| > 0 {
      var e := edits[0];
      ValidEditsTail(text, edits);
      SubstituteLength(text, edits[1..], e.index + e.length);
    }
  }

  /** Number of matches over all editors. */
  function TotalMatches(matches: seq<seq<Edit>>): nat {
    if |matches| == 0 then 0 else TotalMatches(matches[..|matches| - 1]) + |matches[|matches| - 1]|
  }

  /** Number of editors with at least one match. */
  function FilesWithMatches(matches: seq<seq<Edit>>): nat {
    if |matches| == 0 then 0
    else FilesWithMatches(matches[..|matches| - 1]) + (if |matches[|matches| - 1]| > 0 then 1 else 0)
  }

  /** No more files than editors, no more files than matches, and no matches exactly when no files. */
  lemma {:induction false} FileCountBounds(matches: seq<seq<Edit>>)
    ensures FilesWithMatches(matches) <= |matches|
    ensures FilesWithMatches(matches) <= TotalMatches(matches)
    ensures FilesWithMatches(matches) == 0 <==> TotalMatches(matches) == 0
    decreases |matches|
  {
    if |matches| > 0 {
      FileCountBounds(matches[..|matches| - 1]);
    }
  }

  /**
   * An editor's text after replace-all: its matches substituted, untouched
   * without matches. The engine only produces valid match lists; any other
   * list leaves the text alone.
   */
  function ReplacedText(text: string, ms: seq<Edit>): string {
    if |ms| > 0 && ValidEdits(text, ms) then Substitute(text, ms, 0) else text
  }

  /** One editor's share of replace-all: all its matches replaced, if it has any. */
  method ReplaceInEditor(text: string, ms: seq<Edit>) returns (r: string)
    requires ValidEdits(text, ms)
    ensures r == ReplacedText(text, ms)
    ensures |ms| == 0 ==> r == text
  {
    r := text;
    if |ms| > 0 {
      r := ReplaceFromLast(text, ms);
    }
  }

  /** The texts of a run of editors after replace-all, one per editor. */
  function ReplacedTexts(texts: seq<string>, ms: seq<seq<Edit>>): (r: seq<string>)
    requires |ms| == |texts|
    ensures |r| == |texts|
    decreases |texts|
  {
    if |texts| == 0 then []
    else
      var n := |texts| - 1;
      ReplacedTexts(texts[..n], ms[..n]) + [ReplacedText(texts[n], ms[n])]
  }

  /** The needs-save flags of a run of editors after replace-all: set for each editor with a match. */
  function SaveFlags(needsSave: seq<bool>, ms: seq<seq<Edit>>): (r: seq<bool>)
    requires |ms| == |needsSave|
    ensures |r| == |needsSave|
    decreases |needsSave|
  {
    if |needsSave| == 0 then []
    else
      var n := |needsSave| - 1;
      SaveFlags(needsSave[..n], ms[..n]) + [needsSave[n] || |ms[n]| > 0]
  }

  /** Each editor's text is replaced on its own. */
  lemma {:induction false} ReplacedTextsEach(texts: seq<string>, ms: seq<seq<Edit>>)
    requires |ms| == |texts|
    ensures forall j :: 0 <= j < |texts| ==> ReplacedTexts(texts, ms)[j] == ReplacedText(texts[j], ms[j])
    decreases |texts|
  {
    if |texts| > 0 {
      var n := |texts| - 1;
      ReplacedTextsEach(texts[..n], ms[..n]);
      forall j | 0 <= j < n
        ensures ReplacedTexts(texts, ms)[j] == ReplacedText(texts[j], ms[j])
      {
        assert texts[..n][j] == texts[j] && ms[..n][j] == ms[j];
      }
    }
  }

  /** Each editor's flag is set on its own. */
  lemma {:induction false} SaveFlagsEach(needsSave: seq<bool>, ms: seq<seq<Edit>>)
    requires |ms| == |needsSave|
    ensures forall j :: 0 <= j < |needsSave| ==> SaveFlags(needsSave, ms)[j] == (needsSave[j] || |ms[j]| > 0)
    decreases |needsSave|
  {
    if |needsSave| > 0 {
      var n := |needsSave| - 1;
      SaveFlagsEach(needsSave[..n], ms[..n]);
      forall j | 0 <= j < n
        ensures SaveFlags(needsSave, ms)[j] == (needsSave[j] || |ms[j]| > 0)
      {
        assert needsSave[..n][j] == needsSave[j] && ms[..n][j] == ms[j];
      }
    }
  }

  /** One more editor appends its text and flag and adds its matches, and one file when it has any. */
  lemma ReplaceAllStep(texts: seq<string>, needsSave: seq<bool>, ms: seq<seq<Edit>>, i: nat)
    requires |ms| == |texts| == |needsSave| && i < |texts|
    ensures ReplacedTexts(texts[..i + 1], ms[..i + 1]) == ReplacedTexts(texts[..i], ms[..i]) + [ReplacedText(texts[i], ms[i])]
    ensures SaveFlags(needsSave[..i + 1], ms[..i + 1]) == SaveFlags(needsSave[..i], ms[..i]) + [needsSave[i] || |ms[i]| > 0]
    ensures TotalMatches(ms[..i + 1]) == TotalMatches(ms[..i]) + |ms[i]|
    ensures FilesWithMatches(ms[..i + 1]) == FilesWithMatches(ms[..i]) + (if |ms[i]| > 0 then 1 else 0)
  {
    assert texts[..i + 1][..i] == texts[..i];
    assert needsSave[..i + 1][..i] == needsSave[..i];
    assert ms[..i + 1][..i] == ms[..i];
  }

  datatype ReplaceAllResult =
    | ReplaceAllNotRun
    | ReplacedAll(texts: seq<string>, needsSave: seq<bool>, count: nat, fileCount: nat)

  /**
   * `ReplaceAll`: every editor with at least one match gets all of them
   * replaced and is marked as needing a save; the status line reports the
   * number of matches and of editors changed. `matches` holds the engine's
   * match collection for each editor's text, with the expanded replacements;
   * it is absent when no pattern could be built.
   */
  method ReplaceAll(texts: seq<string>, needsSave: seq<bool>, matches: Option<seq<seq<Edit>>>)
    returns (r: ReplaceAllResult)
    requires |needsSave| == |texts|
    requires matches.Some? ==> |matches.value| == |texts|
    requires matches.Some? ==> forall i :: 0 <= i < |texts| ==> ValidEdits(texts[i], matches.value[i])
    ensures r.ReplaceAllNotRun? <==> |texts| == 0 || matches.None?
    ensures r.ReplacedAll? ==> |r.texts| == |texts| && |r.needsSave| == |texts|
    ensures r.ReplacedAll? ==> forall i :: 0 <= i < |texts| ==> r.texts[i] == ReplacedText(texts[i], matches.value[i])
    ensures r.ReplacedAll? ==> forall i :: 0 <= i < |texts| ==> r.needsSave[i] == (needsSave[i] || |matches.value[i]| > 0)
    ensures r.ReplacedAll? ==> r.count == TotalMatches(matches.value)
    ensures r.ReplacedAll? ==> r.fileCount == FilesWithMatches(matches.value)
  {
    if |texts| == 0 || matches.None? {
      return ReplaceAllNotRun;
    }
    var ms := matches.value;
    var out: seq<string> := [];
    var saves: seq<bool> := [];
    var count := 0;
    var fileCount := 0;
    for i := 0 to |texts|
      invariant out == ReplacedTexts(texts[..i], ms[..i])
      invariant saves == SaveFlags(needsSave[..i], ms[..i])
      invariant count == TotalMatches(ms[..i])
      invariant fileCount == FilesWithMatches(ms[..i])
    {
      var mc := ms[i];
      ReplaceAllStep(texts, needsSave, ms, i);
      var text := ReplaceInEditor(texts[i], mc);
      if |mc| > 0 {
        fileCount := fileCount + 1;
        count := count + |mc|;
      }
      out := out + [text];
      saves := saves + [needsSave[i] || |mc| > 0];
    }
    assert ms[..|texts|] == ms && texts[..|texts|] == texts && needsSave[..|texts|] == needsSave;
    ReplacedTextsEach(texts, ms);
    SaveFlagsEach(needsSave, ms);
    return ReplacedAll(out, saves, count, fileCount);
  }
}

=== FILE: resolver.dfy ===
/**
 * Go-to-definition: which declaration a word under the mouse refers to.
 *
 * The editor tries the declaration kinds in a fixed order and keeps the first
 * hit. Here the order is the explicit sequence `Order` of lookup steps; `Pool`
 * says which declarations a step scans (in table order) and `Hit` says when one
 * of them answers the word (exact names for values, case-insensitive names for
 * types, entry membership for enum entries).
 */
module Resolver {
  import opened Wrappers
  import opened Text
  import opened Seqs
  import opened Definitions

  /** The caret lies in the function's `[Index, EndPos]`, both ends included. */
  predicate Encloses(f: Function, caret: int) {
    f.sym.index <= caret <= f.endPos
  }

  /** The current function: the first function whose range contains the caret. */
  function CurrentFunction(functions: seq<Function>, caret: int): (r: Option<Function>)
    ensures r.Some? ==> exists i :: 0 <= i < |functions| && r.value == functions[i] && Encloses(functions[i], caret)
                                    && forall j :: 0 <= j < i ==> !Encloses(functions[j], caret)
    ensures r.None? <==> forall i :: 0 <= i < |functions| ==> !Encloses(functions[i], caret)
  {
    FirstOrNone(functions, f => Encloses(f, caret))
  }

  /** The lookup steps of the resolver. */
  datatype Step =
    | Functions | Locals | Variables | Constants | Defines | Enums | EnumEntries
    | EnumStructs | Methodmaps | Structs | Typedefs

  /** The order in which the steps are tried; the first hit wins. */
  const Order: seq<Step> :=
    [Functions, Locals, Variables, Constants, Defines, Enums, EnumEntries,
     EnumStructs, Methodmaps, Structs, Typedefs]

  /**
   * The declarations step `step` scans, in table order. Local variables are
   * scanned only for the current file and only those of the current function.
   */
  function Pool(d: Definition, step: Step, caret: int, currentFile: bool): seq<Decl> {
    match step
    case Functions => seq(|d.functions|, i requires 0 <= i < |d.functions| => FunctionDecl(d.functions[i]))
    case Locals =>
      if !currentFile then []
      else (match CurrentFunction(d.functions, caret)
        case None => []
        case Some(f) => seq(|f.funcVariables|, i requires 0 <= i < |f.funcVariables| => VariableDecl(f.funcVariables[i])))
    case Variables => seq(|d.variables|, i requires 0 <= i < |d.variables| => VariableDecl(d.variables[i]))
    case Constants => seq(|d.constants|, i requires 0 <= i < |d.constants| => ConstantDecl(d.constants[i]))
    case Defines => seq(|d.defines|, i requires 0 <= i < |d.defines| => DefineDecl(d.defines[i]))
    case Enums => seq(|d.enums|, i requires 0 <= i < |d.enums| => EnumDecl(d.enums[i]))
    case EnumEntries => seq(|d.enums|, i requires 0 <= i < |d.enums| => EnumDecl(d.enums[i]))
    case EnumStructs => seq(|d.enumStructs|, i requires 0 <= i < |d.enumStructs| => EnumStructDecl(d.enumStructs[i]))
    case Methodmaps => seq(|d.methodmaps|, i requires 0 <= i < |d.methodmaps| => MethodmapDecl(d.methodmaps[i]))
    case Structs => seq(|d.structs|, i requires 0 <= i < |d.structs| => StructDecl(d.structs[i]))
    case Typedefs => seq(|d.typedefs|, i requires 0 <= i < |d.typedefs| => TypedefDecl(d.typedefs[i]))
  }

  /** The steps whose names compare ignoring case: the type-like kinds. */
  predicate IgnoresCase(step: Step) {
    step.EnumStructs? || step.Methodmaps? || step.Structs? || step.Typedefs?
  }

  /** Whether `decl` answers `word` under the rule of step `step`. */
  predicate Hit(step: Step, word: string, decl: Decl) {
    if step.EnumEntries? then (match decl case EnumDecl(e) => word in e.entries case _ => false)
    else if IgnoresCase(step) then EqualsIgnoreCase(decl.Name(), word)
    else decl.Name() == word
  }

  /** Step `step` finds nothing for `word`. */
  ghost predicate Misses(d: Definition, step: Step, word: string, caret: int, currentFile: bool) {
    var pool := Pool(d, step, caret, currentFile);
    forall i :: 0 <= i < |pool| ==> !Hit(step, word, pool[i])
  }

  /** Position `i` holds the first declaration step `step` accepts. */
  ghost predicate FirstHit(d: Definition, step: Step, word: string, caret: int, currentFile: bool, i: int) {
    var pool := Pool(d, step, caret, currentFile);
    0 <= i < |pool| && Hit(step, word, pool[i]) && forall j :: 0 <= j < i ==> !Hit(step, word, pool[j])
  }

  /** One step: the position of its first hit, as `FirstOrDefault` finds it. */
  function Scan(d: Definition, step: Step, word: string, caret: int, currentFile: bool): (r: Option<nat>)
    ensures r.Some? ==> FirstHit(d, step, word, caret, currentFile, r.value)
    ensures r.None? <==> Misses(d, step, word, caret, currentFile)
  {
    FindFirst(Pool(d, step, caret, currentFile), x => Hit(step, word, x))
  }

  /**
   * The `??` chain over `steps`: the first step that hits, with the position of
   * its first hit. Later steps are consulted only when every earlier one misses.
   */
  function LocateFrom(d: Definition, word: string, caret: int, currentFile: bool, steps: seq<Step>): (r: Option<(nat, nat)>)
    ensures r.Some? ==> r.value.0 < |steps| && FirstHit(d, steps[r.value.0], word, caret, currentFile, r.value.1)
    ensures r.Some? ==> forall k :: 0 <= k < r.value.0 ==> Misses(d, steps[k], word, caret, currentFile)
    ensures r.None? <==> forall k :: 0 <= k < |steps| ==> Misses(d, steps[k], word, caret, currentFile)
  {
    FirstFound(steps, step => Scan(d, step, word, caret, currentFile))
  }

  /**
   * `MatchDefinition`: no table or no text position under the mouse gives
   * nothing; otherwise the first hit of the first step in `Order` that hits.
   */
  function MatchDefinition(def: Option<Definition>, word: string, offset: Option<int>, currentFile: bool): (r: Option<Decl>)
    ensures def.None? || offset.None? ==> r.None?
    ensures r.Some? ==> def.Some? && offset.Some?
    ensures r.Some? ==>
      exists k, i :: 0 <= k < |Order| && FirstHit(def.value, Order[k], word, offset.value, currentFile, i)
        && r.value == Pool(def.value, Order[k], offset.value, currentFile)[i]
        && forall j :: 0 <= j < k ==> Misses(def.value, Order[j], word, offset.value, currentFile)
    ensures def.Some? && offset.Some? ==>
      (r.None? <==> forall k :: 0 <= k < |Order| ==> Misses(def.value, Order[k], word, offset.value, currentFile))
    ensures r.Some? ==> ObeysCaseRules(word, r.value) && InScope(def.value, offset.value, currentFile, r.value)
  {
    if def.None? || offset.None? then None
    else match LocateFrom(def.value, word, offset.value, currentFile, Order)
      case None => None
      case Some(hit) =>
        AcceptedKind(def.value, Order[hit.0], word, offset.value, currentFile, hit.1);
        Some(Pool(def.value, Order[hit.0], offset.value, currentFile)[hit.1])
  }

  /**
   * The comparison each kind is found by: values by exact name, enums by exact
   * name or by an entry, type-like kinds by name ignoring case; methods and
   * fields are never found.
   */
  predicate ObeysCaseRules(word: string, x: Decl) {
    && (x.FunctionDecl? || x.VariableDecl? || x.ConstantDecl? || x.DefineDecl? ==> x.Name() == word)
    && (x.EnumDecl? ==> x.Name() == word || word in x.enumDecl.entries)
    && (x.EnumStructDecl? || x.MethodmapDecl? || x.StructDecl? || x.TypedefDecl? ==> EqualsIgnoreCase(x.Name(), word))
    && !x.MethodmapMethodDecl? && !x.MethodmapFieldDecl? && !x.EnumStructMethodDecl? && !x.EnumStructFieldDecl?
  }

  /**
   * `x` is declared in the table where its kind is kept; a variable is a
   * global one, or, for the current file only, a local of the function
   * enclosing the caret.
   */
  ghost predicate InScope(d: Definition, caret: int, currentFile: bool, x: Decl) {
    match x
    case FunctionDecl(f) => f in d.functions
    case VariableDecl(s) =>
      s in d.variables
      || (currentFile && CurrentFunction(d.functions, caret).Some? && s in CurrentFunction(d.functions, caret).value.funcVariables)
    case ConstantDecl(s) => s in d.constants
    case DefineDecl(s) => s in d.defines
    case EnumDecl(e) => e in d.enums
    case EnumStructDecl(e) => e in d.enumStructs
    case MethodmapDecl(m) => m in d.methodmaps
    case StructDecl(s) => s in d.structs
    case TypedefDecl(s) => s in d.typedefs
    case _ => false
  }

  /** A function named exactly `word` wins over every other kind, whatever else shares the name. */
  lemma FunctionsComeFirst(d: Definition, word: string, caret: int, currentFile: bool, i: nat)
    requires i < |d.functions| && d.functions[i].sym.name == word
    requires forall j :: 0 <= j < i ==> d.functions[j].sym.name != word
    ensures MatchDefinition(Some(d), word, Some(caret), currentFile) == Some(FunctionDecl(d.functions[i]))
  {
    assert FirstHit(d, Order[0], word, caret, currentFile, i);
    LocatedAt(d, word, caret, currentFile, Order, 0, i);
  }

  /** The chain stops at the first step that hits, at that step's first hit. */
  lemma LocatedAt(d: Definition, word: string, caret: int, currentFile: bool, steps: seq<Step>, k: nat, i: nat)
    requires k < |steps|
    requires forall j :: 0 <= j < k ==> Misses(d, steps[j], word, caret, currentFile)
    requires FirstHit(d, steps[k], word, caret, currentFile, i)
    ensures LocateFrom(d, word, caret, currentFile, steps) == Some((k, i))
  {
    var f := step => Scan(d, step, word, caret, currentFile);
    forall j | 0 <= j < k
      ensures f(steps[j]).None?
    {
      assert Misses(d, steps[j], word, caret, currentFile);
    }
    ScanFinds(d, steps[k], word, caret, currentFile, i);
    FirstFoundAt(steps, f, k, i);
  }

  /** A step with a first hit reports that hit. */
  lemma ScanFinds(d: Definition, step: Step, word: string, caret: int, currentFile: bool, i: nat)
    requires FirstHit(d, step, word, caret, currentFile, i)
    ensures Scan(d, step, word, caret, currentFile) == Some(i)
  {
    var r := Scan(d, step, word, caret, currentFile);
    assert !Misses(d, step, word, caret, currentFile);
    FirstHitUnique(d, step, word, caret, currentFile, i, r.value);
  }

  /** A step has at most one first hit. */
  lemma FirstHitUnique(d: Definition, step: Step, word: string, caret: int, currentFile: bool, i: int, j: int)
    requires FirstHit(d, step, word, caret, currentFile, i) && FirstHit(d, step, word, caret, currentFile, j)
    ensures i == j
  {
  }

  /**
   * With no function of that name, the current file's lookup answers with the
   * first local variable of that name in the function enclosing the caret.
   */
  lemma LocalsOfEnclosingFunction(d: Definition, word: string, caret: int, f: Function, i: nat)
    requires forall j :: 0 <= j < |d.functions| ==> d.functions[j].sym.name != word
    requires CurrentFunction(d.functions, caret) == Some(f)
    requires i < |f.funcVariables| && f.funcVariables[i].name == word
    requires forall j :: 0 <= j < i ==> f.funcVariables[j].name != word
    ensures MatchDefinition(Some(d), word, Some(caret), true) == Some(VariableDecl(f.funcVariables[i]))
  {
    assert Misses(d, Order[0], word, caret, true);
    assert FirstHit(d, Order[1], word, caret, true, i);
    LocatedAt(d, word, caret, true, Order, 1, i);
  }

  /** When no function encloses the caret, the current-file lookup is the same as the plain one. */
  lemma NoEnclosingFunctionNoLocals(d: Definition, word: string, caret: int)
    requires CurrentFunction(d.functions, caret).None?
    ensures MatchDefinition(Some(d), word, Some(caret), true) == MatchDefinition(Some(d), word, Some(caret), false)
  {
    forall s: Step
      ensures Pool(d, s, caret, true) == Pool(d, s, caret, false)
    {
    }
    SamePoolsSameLocation(d, word, caret, Order);
  }

  /** The `??` chain depends on `currentFile` only through the pools it scans. */
  lemma {:induction false} SamePoolsSameLocation(d: Definition, word: string, caret: int, steps: seq<Step>)
    requires forall s: Step :: Pool(d, s, caret, true) == Pool(d, s, caret, false)
    ensures LocateFrom(d, word, caret, true, steps) == LocateFrom(d, word, caret, false, steps)
    decreases |steps|
  {
    if |steps| > 0 {
      SamePoolsSameLocation(d, word, caret, steps[1..]);
    }
  }

  /**
   * A word that is an entry of some enum, when no earlier step hits, resolves to
   * the first enum listing it: the enum declaration itself, not the entry.
   */
  lemma EnumEntryResolvesToEnum(d: Definition, word: string, caret: int, currentFile: bool, e: nat)
    requires forall k :: 0 <= k < 6 ==> Misses(d, Order[k], word, caret, currentFile)
    requires e < |d.enums| && word in d.enums[e].entries
    requires forall j :: 0 <= j < e ==> word !in d.enums[j].entries
    ensures MatchDefinition(Some(d), word, Some(caret), currentFile) == Some(EnumDecl(d.enums[e]))
  {
    assert FirstHit(d, Order[6], word, caret, currentFile, e);
    LocatedAt(d, word, caret, currentFile, Order, 6, e);
  }

  /** A declaration a step accepts obeys its kind's comparison and is declared where the step looks. */
  lemma AcceptedKind(d: Definition, step: Step, word: string, caret: int, currentFile: bool, i: nat)
    requires i < |Pool(d, step, caret, currentFile)| && Hit(step, word, Pool(d, step, caret, currentFile)[i])
    ensures ObeysCaseRules(word, Pool(d, step, caret, currentFile)[i])
    ensures InScope(d, caret, currentFile, Pool(d, step, caret, currentFile)[i])
  {
    PoolKind(d, step, caret, currentFile, i);
  }

  /** Which kind of declaration each step scans. */
  lemma PoolKind(d: Definition, step: Step, caret: int, currentFile: bool, i: nat)
    requires i < |Pool(d, step, caret, currentFile)|
    ensures var x := Pool(d, step, caret, currentFile)[i];
      && (x.FunctionDecl? <==> step.Functions?)
      && (x.VariableDecl? <==> step.Locals? || step.Variables?)
      && (x.ConstantDecl? <==> step.Constants?)
      && (x.DefineDecl? <==> step.Defines?)
      && (x.EnumDecl? <==> step.Enums? || step.EnumEntries?)
      && (x.EnumStructDecl? <==> step.EnumStructs?)
      && (x.MethodmapDecl? <==> step.Methodmaps?)
      && (x.StructDecl? <==> step.Structs?)
      && (x.TypedefDecl? <==> step.Typedefs?)
  {
  }

  /** A symbol with only a name, at the start of an unnamed file. */
  function Named(name: string): Symbol {
    Symbol(name, 0, |name|, "", "", "")
  }

  /** Resolving an enum entry name yields the enum that lists it. */
  lemma ColorsScenario()
    ensures var colors := Enum(Named("Colors"), ["RED", "GREEN"]);
      MatchDefinition(Some(Empty.(enums := [colors])), "GREEN", Some(0), false) == Some(EnumDecl(colors))
  {
    var colors := Enum(Named("Colors"), ["RED", "GREEN"]);
    var d := Empty.(enums := [colors]);
    assert "GREEN" != "Colors";
    forall k | 0 <= k < 6
      ensures Misses(d, Order[k], "GREEN", 0, false)
    {
    }
    EnumEntryResolvesToEnum(d, "GREEN", 0, false, 0);
  }

  /** Type-like names compare ignoring case, value names do not. */
  lemma CaseSplitScenario()
    ensures MatchDefinition(Some(Empty.(methodmaps := [Methodmap(Named("foo"), "", "", [], [])])), "FOO", Some(0), false).Some?
    ensures MatchDefinition(Some(Empty.(variables := [Named("foo")])), "FOO", Some(0), false).None?
  {
    var mm := Empty.(methodmaps := [Methodmap(Named("foo"), "", "", [], [])]);
    assert Lower("foo") == Lower("FOO");
    assert Pool(mm, Order[8], 0, false)[0] == MethodmapDecl(mm.methodmaps[0]);
    assert Hit(Order[8], "FOO", Pool(mm, Order[8], 0, false)[0]);
    var vs := Empty.(variables := [Named("foo")]);
    assert "foo" != "FOO";
    forall k | 0 <= k < |Order|
      ensures Misses(vs, Order[k], "FOO", 0, false)
    {
    }
  }

  /** Where ctrl-click sends the caret. */
  datatype Navigation =
    | NoJump
    | JumpInCurrent(index: int, length: int)
    | JumpInInclude(path: string, index: int, length: int)

  /**
   * `Path.Combine` of a directory and a file name: the directory alone when
   * the name is empty, the name alone when the directory is empty, otherwise
   * the two with a `\` between them unless the directory already ends with a
   * directory or volume separator. A rooted file name, which `Path.Combine`
   * returns on its own, is not modelled.
   */
  function JoinPath(a: string, b: string): string {
    if |b| == 0 then a
    else if |a| == 0 then b
    else if a[|a| - 1] in {'\\', '/', ':'} then a + b
    else a + "\\" + b
  }

  /** The include file a declaration of `file` lives in under one configured directory. */
  function IncludeFile(directory: string, file: string): string {
    JoinPath(JoinPath(directory, "include"), file) + ".inc"
  }

  /**
   * Ctrl-click: a blank word does nothing; a hit in the current file's table
   * jumps there; otherwise a hit in the configuration's table opens its include
   * file from the first directory where it can be loaded and jumps there.
   */
  function GoToDefinition(
    word: string, offset: Option<int>, current: Option<Definition>, config: Option<Definition>,
    directories: seq<string>, loads: string -> bool): (r: Navigation)
    ensures IsBlank(word) ==> r.NoJump?
    ensures !IsBlank(word) && MatchDefinition(current, word, offset, true).Some? ==>
      var m := MatchDefinition(current, word, offset, true).value;
      r == JumpInCurrent(m.Info().index, m.Info().length)
    ensures r.JumpInCurrent? ==> !IsBlank(word) && MatchDefinition(current, word, offset, true).Some?
    ensures r.JumpInInclude? ==>
      && !IsBlank(word)
      && MatchDefinition(current, word, offset, true).None?
      && var m := MatchDefinition(config, word, offset, false);
      && m.Some? && r.index == m.value.Info().index && r.length == m.value.Info().length
      && (exists i :: 0 <= i < |directories| && r.path == IncludeFile(directories[i], m.value.Info().file)
            && loads(r.path)
            && forall j :: 0 <= j < i ==> !loads(IncludeFile(directories[j], m.value.Info().file)))
    ensures r.NoJump? && !IsBlank(word) && MatchDefinition(current, word, offset, true).None? ==>
      var m := MatchDefinition(config, word, offset, false);
      m.None? || forall j :: 0 <= j < |directories| ==> !loads(IncludeFile(directories[j], m.value.Info().file))
  {
    if |Trim(word)| == 0 then NoJump
    else match MatchDefinition(current, word, offset, true)
      case Some(m) => JumpInCurrent(m.Info().index, m.Info().length)
      case None =>
        match MatchDefinition(config, word, offset, false)
        case None => NoJump
        case Some(m) =>
          match FindFirst(directories, dir => loads(IncludeFile(dir, m.Info().file)))
          case None => NoJump
          case Some(i) => JumpInInclude(IncludeFile(directories[i], m.Info().file), m.Info().index, m.Info().length)
  }
}

=== FILE: search_pattern.dfy ===
/**
 * How the find/replace panel turns the find box into a pattern
 * (`GetSearchRegex`): the options taken from the check boxes, the matcher
 * chosen by the mode buttons, and the escape decoding of the advanced mode.
 * The regex engine itself is not modelled: a pattern is described by what it
 * was built from.
 */
module SearchPattern {
  import opened Wrappers
  import opened Text

  /** The mode radio buttons: plain text, whole word, plain text with escapes, regular expression. */
  datatype SearchMode = Normal | WholeWord | Advanced | RegexMode

  /** The panel's state: case-sensitivity box, mode, and the "dot matches newline" box of the regex mode. */
  datatype PanelOptions = PanelOptions(matchCase: bool, mode: SearchMode, dotAll: bool)

  /** What the pattern matches: the literal text, the literal text between word borders, or a regular expression. */
  datatype Matcher = Literal(text: string) | WordBounded(text: string) | Expression(source: string)

  /** A compiled pattern with its options. */
  datatype Pattern = Pattern(matcher: Matcher, ignoreCase: bool, multiline: bool, singleline: bool)

  /** The three control-character escapes, replaced in this order. */
  function ControlEscapes(s: string): string {
    ReplaceLiteral(ReplaceLiteral(ReplaceLiteral(s, "\\t", "\t"), "\\r", "\r"), "\\n", "\n")
  }

  /** An upper-case hexadecimal digit, the class `[0-9A-F]`. */
  predicate IsHexDigit(c: char) {
    ('0' <= c <= '9') || ('A' <= c <= 'F')
  }

  function HexDigitValue(c: char): (v: nat)
    requires IsHexDigit(c)
    ensures v < 16
  {
    if c <= '9' then c as int - '0' as int else c as int - 'A' as int + 10
  }

  /** The value of four hexadecimal digits, most significant first. */
  function HexValue(s: string): (v: nat)
    requires |s| == 4 && forall i :: 0 <= i < 4 ==> IsHexDigit(s[i])
    ensures v < 0x1_0000
  {
    ((HexDigitValue(s[0]) * 16 + HexDigitValue(s[1])) * 16 + HexDigitValue(s[2])) * 16 + HexDigitValue(s[3])
  }

  /** A code unit that is a character on its own (not half of a surrogate pair). */
  predicate IsScalar(v: nat) {
    v < 0xD800 || (0xE000 <= v < 0x11_0000)
  }

  /** `\\[uUxX]([0-9A-F]{4})` matches at the start of `s`, and its value is a character on its own. */
  predicate HexEscapeAt(s: string) {
    && |s| >= 6
    && s[0] == '\\'
    && (s[1] == 'u' || s[1] == 'U' || s[1] == 'x' || s[1] == 'X')
    && IsHexDigit(s[2]) && IsHexDigit(s[3]) && IsHexDigit(s[4]) && IsHexDigit(s[5])
    && IsScalar(HexValue(s[2..6]))
  }

  /** The left-to-right replacement of every hexadecimal escape by the character it names. */
  function HexEscapes(s: string): string
    decreases |s|
  {
    if |s| == 0 then ""
    else if HexEscapeAt(s) then [HexValue(s[2..6]) as char] + HexEscapes(s[6..])
    else [s[0]] + HexEscapes(s[1..])
  }

  /** The find string of the advanced mode after its escapes are decoded. */
  function DecodeEscapes(s: string): string {
    HexEscapes(ControlEscapes(s))
  }

  /**
   * `GetSearchRegex`: no pattern for an empty find string or an expression
   * that does not compile (`compiles` stands for the regex constructor not
   * throwing); otherwise the matcher the mode selects, case-insensitive
   * unless the case box is checked, multi-line in the regex mode and
   * single-line there too when its box is checked.
   */
  function GetSearchRegex(find: string, options: PanelOptions, compiles: string -> bool): (r: Option<Pattern>)
    ensures |find| == 0 ==> r.None?
    ensures options.mode.RegexMode? ==> (r.Some? <==> |find| > 0 && compiles(find))
    ensures !options.mode.RegexMode? ==> (r.Some? <==> |find| > 0)
    ensures r.Some? ==> r.value.ignoreCase == !options.matchCase
    ensures r.Some? ==> (r.value.multiline <==> options.mode.RegexMode?)
    ensures r.Some? ==> (r.value.singleline <==> options.mode.RegexMode? && options.dotAll)
    ensures r.Some? ==> match options.mode
      case Normal => r.value.matcher == Literal(find)
      case WholeWord => r.value.matcher == WordBounded(find)
      case Advanced => r.value.matcher == Literal(DecodeEscapes(find))
      case RegexMode => r.value.matcher == Expression(find)
  {
    if |find| == 0 then None
    else
      var ignoreCase := !options.matchCase;
      match options.mode
      case Normal => Some(Pattern(Literal(find), ignoreCase, false, false))
      case WholeWord => Some(Pattern(WordBounded(find), ignoreCase, false, false))
      case Advanced => Some(Pattern(Literal(DecodeEscapes(find)), ignoreCase, false, false))
      case RegexMode =>
        if compiles(find) then Some(Pattern(Expression(find), ignoreCase, true, options.dotAll)) else None
  }

  /** `ReplaceLiteral` never grows the text when the replacement is no longer than the target. */
  lemma {:induction false} ReplaceLiteralShrinks(s: string, target: string, replacement: string)
    requires |target| > 0 && |replacement| <= |target|
    ensures |ReplaceLiteral(s, target, replacement)| <= |s|
    decreases |s|
  {
    if |s| > 0 {
      if OccursAt(s, target, 0) {
        ReplaceLiteralShrinks(s[|target|..], target, replacement);
      } else {
        ReplaceLiteralShrinks(s[1..], target, replacement);
      }
    }
  }

  /** `ReplaceLiteral` is the identity on a text without the target's first character. */
  lemma {:induction false} ReplaceLiteralAbsent(s: string, target: string, replacement: string)
    requires |target| > 0 && target[0] !in s
    ensures ReplaceLiteral(s, target, replacement) == s
    decreases |s|
  {
    if |s| > 0 {
      assert s[0] != target[0];
      assert !OccursAt(s, target, 0);
      assert target[0] !in s[1..];
      ReplaceLiteralAbsent(s[1..], target, replacement);
      assert s == [s[0]] + s[1..];
    }
  }

  /** Replacing a pair by a character different from both halves of another pair does not create that pair. */
  lemma {:induction false} ReplacePairKeepsAbsent(s: string, a: char, b: char, c: char, x: char, y: char)
    requires c != x && c != y
    requires forall k :: !OccursAt(s, [x, y], k)
    ensures forall k :: !OccursAt(ReplaceLiteral(s, [a, b], [c]), [x, y], k)
    decreases |s|
  {
    var r := ReplaceLiteral(s, [a, b], [c]);
    if |s| > 0 {
      PairAt(s, a, b, 0);
      var matched := OccursAt(s, [a, b], 0);
      var rest := if matched then s[2..] else s[1..];
      forall k
        ensures !OccursAt(rest, [x, y], k)
      {
        PairAt(rest, x, y, k);
        PairAt(s, x, y, k + (if matched then 2 else 1));
      }
      var tail := ReplaceLiteral(rest, [a, b], [c]);
      ReplacePairKeepsAbsent(rest, a, b, c, x, y);
      var head := if matched then c else s[0];
      assert r == [head] + tail;
      if |rest| > 0 {
        PairAt(rest, a, b, 0);
        assert tail[0] == (if OccursAt(rest, [a, b], 0) then c else rest[0]);
        if !matched && !OccursAt(rest, [a, b], 0) {
          PairAt(s, x, y, 0);
        }
      }
      forall k
        ensures !OccursAt(r, [x, y], k)
      {
        PairAt(r, x, y, k);
        PairAt(tail, x, y, k - 1);
      }
    }
  }

  /** After the control-character stage no `\t`, `\r` or `\n` escape is left. */
  lemma ControlEscapesLeaveNone(s: string)
    ensures forall k :: !OccursAt(ControlEscapes(s), "\\t", k)
    ensures forall k :: !OccursAt(ControlEscapes(s), "\\r", k)
    ensures forall k :: !OccursAt(ControlEscapes(s), "\\n", k)
  {
    var s1 := ReplaceLiteral(s, "\\t", "\t");
    assert "\\t" == ['\\', 't'] && "\t" == ['\t'];
    assert "\\r" == ['\\', 'r'] && "\r" == ['\r'];
    assert "\\n" == ['\\', 'n'] && "\n" == ['\n'];
    ReplacePairLeavesNone(s, '\\', 't', '\t');
    var s2 := ReplaceLiteral(s1, "\\r", "\r");
    ReplacePairLeavesNone(s1, '\\', 'r', '\r');
    ReplacePairKeepsAbsent(s1, '\\', 'r', '\r', '\\', 't');
    ReplacePairLeavesNone(s2, '\\', 'n', '\n');
    ReplacePairKeepsAbsent(s2, '\\', 'n', '\n', '\\', 't');
    ReplacePairKeepsAbsent(s2, '\\', 'n', '\n', '\\', 'r');
  }

  /** The hexadecimal stage never grows the text. */
  lemma {:induction false} HexEscapesShrinks(s: string)
    ensures |HexEscapes(s)| <= |s|
    decreases |s|
  {
    if |s| > 0 {
      if HexEscapeAt(s) {
        HexEscapesShrinks(s[6..]);
      } else {
        HexEscapesShrinks(s[1..]);
      }
    }
  }

  /** The hexadecimal stage is the identity on a text without a backslash. */
  lemma {:induction false} HexEscapesAbsent(s: string)
    requires '\\' !in s
    ensures HexEscapes(s) == s
    decreases |s|
  {
    if |s| > 0 {
      assert s[0] != '\\';
      assert '\\' !in s[1..];
      HexEscapesAbsent(s[1..]);
      assert s == [s[0]] + s[1..];
    }
  }

  /** Decoding never makes the find string longer. */
  lemma DecodeEscapesShrinks(s: string)
    ensures |DecodeEscapes(s)| <= |s|
  {
    var s1 := ReplaceLiteral(s, "\\t", "\t");
    var s2 := ReplaceLiteral(s1, "\\r", "\r");
    ReplaceLiteralShrinks(s, "\\t", "\t");
    ReplaceLiteralShrinks(s1, "\\r", "\r");
    ReplaceLiteralShrinks(s2, "\\n", "\n");
    HexEscapesShrinks(ControlEscapes(s));
  }

  /** A find string without a backslash is searched for as typed. */
  lemma DecodeEscapesWithoutBackslash(s: string)
    requires '\\' !in s
    ensures DecodeEscapes(s) == s
  {
    ReplaceLiteralAbsent(s, "\\t", "\t");
    ReplaceLiteralAbsent(s, "\\r", "\r");
    ReplaceLiteralAbsent(s, "\\n", "\n");
    HexEscapesAbsent(s);
  }

  /** `\x0041` names `A`. */
  lemma HexEscapeExample()
    ensures DecodeEscapes("\\x0041") == "A"
  {
    var s := "\\x0041";
    ReplaceLiteralAbsentTail(s);
    assert HexValue(s[2..6]) == 0x41;
    assert HexEscapeAt(s);
    assert HexEscapes(s) == [0x41 as char] + HexEscapes("");
  }

  /** None of the control-character escapes occurs in `\x0041`. */
  lemma ReplaceLiteralAbsentTail(s: string)
    requires s == "\\x0041"
    ensures ControlEscapes(s) == s
  {
    assert s[0..2] == ['\\', 'x'];
    assert 't' !in s[1..] && 'r' !in s[1..] && 'n' !in s[1..];
    NoPairAfterFirst(s, "\\t", "\t");
    NoPairAfterFirst(s, "\\r", "\r");
    NoPairAfterFirst(s, "\\n", "\n");
  }

  /** A text whose first position does not hold the target and whose rest lacks the target's first character is left as it is. */
  lemma NoPairAfterFirst(s: string, target: string, replacement: string)
    requires |s| > 0 && |target| == 2 && !OccursAt(s, target, 0) && target[0] !in s[1..]
    ensures ReplaceLiteral(s, target, replacement) == s
  {
    ReplaceLiteralAbsent(s[1..], target, replacement);
    assert s == [s[0]] + s[1..];
  }
}

=== FILE: seqs.dfy ===
/** Linear searches over sequences, the shape of LINQ's `FirstOrDefault` and of index loops. */
module Seqs {
  import opened Wrappers

  /** `p` holds at position `i` and at no earlier position. */
  ghost predicate IsFirst<T>(xs: seq<T>, p: T -> bool, i: int) {
    0 <= i < |xs| && p(xs[i]) && forall j :: 0 <= j < i ==> !p(xs[j])
  }

  /** Position of the first element satisfying `p` (`FirstOrDefault`), or `None` if there is none. */
  function FindFirst<T>(xs: seq<T>, p: T -> bool): (r: Option<nat>)
    ensures r.Some? ==> IsFirst(xs, p, r.value)
    ensures r.None? <==> forall j :: 0 <= j < |xs| ==> !p(xs[j])
  {
    if |xs| == 0 then None
    else if p(xs[0]) then Some(0)
    else match FindFirst(xs[1..], p)
      case None => None
      case Some(i) => Some(i + 1)
  }

  /** `FirstOrDefault` on the elements themselves. */
  function FirstOrNone<T>(xs: seq<T>, p: T -> bool): (r: Option<T>)
    ensures r.Some? ==> exists i :: IsFirst(xs, p, i) && r.value == xs[i]
    ensures r.None? <==> forall j :: 0 <= j < |xs| ==> !p(xs[j])
  {
    match FindFirst(xs, p)
    case None => None
    case Some(i) => Some(xs[i])
  }

  /** Position of the last element satisfying `p`, or `None` if there is none. */
  function FindLast<T>(xs: seq<T>, p: T -> bool): (r: Option<nat>)
    ensures r.Some? ==> r.value < |xs| && p(xs[r.value])
    ensures r.Some? ==> forall j :: r.value < j < |xs| ==> !p(xs[j])
    ensures r.None? <==> forall j :: 0 <= j < |xs| ==> !p(xs[j])
  {
    if |xs| == 0 then None
    else if p(xs[|xs| - 1]) then Some(|xs| - 1)
    else FindLast(xs[..|xs| - 1], p)
  }

  /** The first element for which `f` finds something, with what it found (a chain of `??`). */
  function FirstFound<T>(xs: seq<T>, f: T -> Option<nat>): (r: Option<(nat, nat)>)
    ensures r.Some? ==> r.value.0 < |xs| && f(xs[r.value.0]) == Some(r.value.1)
    ensures r.Some? ==> forall k :: 0 <= k < r.value.0 ==> f(xs[k]).None?
    ensures r.None? <==> forall k :: 0 <= k < |xs| ==> f(xs[k]).None?
  {
    if |xs| == 0 then None
    else match f(xs[0])
      case Some(i) => Some((0, i))
      case None =>
        match FirstFound(xs[1..], f)
        case None => None
        case Some(hit) => Some((hit.0 + 1, hit.1))
  }

  /** The chain stops at the first element for which `f` finds something. */
  lemma FirstFoundAt<T>(xs: seq<T>, f: T -> Option<nat>, k: nat, i: nat)
    requires k < |xs| && f(xs[k]) == Some(i)
    requires forall j :: 0 <= j < k ==> f(xs[j]).None?
    ensures FirstFound(xs, f) == Some((k, i))
  {
    var r := FirstFound(xs, f);
    assert r.value.0 <= k;
  }
}

=== FILE: text.dfy ===
/**
 * The handful of .NET string primitives the editor relies on, written out over
 * `seq<char>`: `char.IsWhiteSpace`, `string.IsNullOrWhiteSpace`, `Trim`,
 * invariant lower-casing (as ASCII case folding), ordinal `IndexOf`/`Contains`,
 * `string.CompareOrdinal`, `String.Replace`, `PadRight` and decimal formatting.
 */
module Text {
  import opened Wrappers

  /** `char.IsWhiteSpace`: the Unicode space, line and paragraph separators plus U+0009..U+000D and U+0085. */
  predicate IsWhiteSpace(c: char) {
    || c == ' ' || ('\t' <= c <= '\r') || c == '\U{0085}' || c == '\U{00A0}'
    || c == '\U{1680}' || ('\U{2000}' <= c <= '\U{200A}') || c == '\U{2028}' || c == '\U{2029}'
    || c == '\U{202F}' || c == '\U{205F}' || c == '\U{3000}'
  }

  /** `string.IsNullOrWhiteSpace`; a null string is represented by the empty one. */
  predicate IsBlank(s: string) {
    forall i :: 0 <= i < |s| ==> IsWhiteSpace(s[i])
  }

  /** Number of white-space characters before the first other character. */
  function LeadingWhiteSpace(s: string): (n: nat)
    ensures n <= |s|
    ensures forall i :: 0 <= i < n ==> IsWhiteSpace(s[i])
    ensures n < |s| ==> !IsWhiteSpace(s[n])
  {
    if |s| > 0 && IsWhiteSpace(s[0]) then 1 + LeadingWhiteSpace(s[1..]) else 0
  }

  /** Number of white-space characters after the last other character. */
  function TrailingWhiteSpace(s: string): (n: nat)
    ensures n <= |s|
    ensures forall i :: |s| - n <= i < |s| ==> IsWhiteSpace(s[i])
    ensures n < |s| ==> !IsWhiteSpace(s[|s| - n - 1])
  {
    if |s| > 0 && IsWhiteSpace(s[|s| - 1]) then 1 + TrailingWhiteSpace(s[..|s| - 1]) else 0
  }

  /** `string.Trim()`: the text without its leading and trailing white space. */
  function Trim(s: string): (r: string)
    ensures LeadingWhiteSpace(s) + |r| <= |s|
    ensures r == s[LeadingWhiteSpace(s)..LeadingWhiteSpace(s) + |r|]
    ensures |r| > 0 ==> !IsWhiteSpace(r[0]) && !IsWhiteSpace(r[|r| - 1])
    ensures |r| == 0 <==> IsBlank(s)
  {
    var t := s[LeadingWhiteSpace(s)..];
    var r := t[..|t| - TrailingWhiteSpace(t)];
    assert |r| > 0 ==> r[0] == s[LeadingWhiteSpace(s)];
    r
  }

  /** Invariant lower-casing of one character, approximated by ASCII case folding. */
  function LowerChar(c: char): (d: char)
    ensures 'A' <= c <= 'Z' ==> 'a' <= d <= 'z'
    ensures !('A' <= c <= 'Z') ==> d == c
  {
    if 'A' <= c <= 'Z' then (c as int + 32) as char else c
  }

  /** `ToLowerInvariant`, character by character. */
  function Lower(s: string): (r: string)
    ensures |r| == |s|
    ensures forall i :: 0 <= i < |s| ==> r[i] == LowerChar(s[i])
  {
    seq(|s|, i requires 0 <= i < |s| => LowerChar(s[i]))
  }

  /** `StringComparison.InvariantCultureIgnoreCase` equality. */
  predicate EqualsIgnoreCase(a: string, b: string) {
    Lower(a) == Lower(b)
  }

  /** `pattern` occurs in `s` starting at position `k`. */
  predicate OccursAt(s: string, pattern: string, k: int) {
    0 <= k && k + |pattern| <= |s| && s[k..k + |pattern|] == pattern
  }

  /** Ordinal `string.Contains`. */
  predicate Contains(s: string, pattern: string) {
    exists k :: 0 <= k <= |s| && OccursAt(s, pattern, k)
  }

  /** Ordinal `string.IndexOf(pattern, start)`: the first occurrence at or after `start`, `None` for -1. */
  function IndexOf(s: string, pattern: string, start: nat): (r: Option<nat>)
    requires start <= |s|
    ensures r.Some? ==> start <= r.value <= |s| && OccursAt(s, pattern, r.value)
    ensures r.Some? ==> forall k :: start <= k < r.value ==> !OccursAt(s, pattern, k)
    ensures r.None? ==> forall k :: start <= k <= |s| ==> !OccursAt(s, pattern, k)
    decreases |s| - start
  {
    if OccursAt(s, pattern, start) then Some(start)
    else if start == |s| then None
    else IndexOf(s, pattern, start + 1)
  }

  /** `Contains` is what `IndexOf` from the start reports. */
  lemma ContainsIffIndexOf(s: string, pattern: string)
    ensures Contains(s, pattern) <==> IndexOf(s, pattern, 0).Some?
  {
    if IndexOf(s, pattern, 0).Some? {
      var k := IndexOf(s, pattern, 0).value;
      assert OccursAt(s, pattern, k);
    }
  }

  /** Every string contains the empty string. */
  lemma ContainsEmpty(s: string)
    ensures Contains(s, "")
  {
    assert OccursAt(s, "", 0);
  }

  /**
   * `string.CompareOrdinal(a, b) <= 0`: lexicographic order on characters, a
   * proper prefix first. A `char` here is a Unicode scalar value where .NET
   * compares UTF-16 code units, so the two orders agree on text within the
   * Basic Multilingual Plane only.
   */
  predicate OrdinalLe(a: string, b: string)
    decreases |a|
  {
    |a| == 0 || (|b| > 0 && (a[0] < b[0] || (a[0] == b[0] && OrdinalLe(a[1..], b[1..]))))
  }

  lemma {:induction false} OrdinalLeTotal(a: string, b: string)
    ensures OrdinalLe(a, b) || OrdinalLe(b, a)
    decreases |a|
  {
    if |a| > 0 && |b| > 0 && a[0] == b[0] {
      OrdinalLeTotal(a[1..], b[1..]);
    }
  }

  lemma {:induction false} OrdinalLeTransitive(a: string, b: string, c: string)
    requires OrdinalLe(a, b) && OrdinalLe(b, c)
    ensures OrdinalLe(a, c)
    decreases |a|
  {
    if |a| > 0 && a[0] == b[0] && b[0] == c[0] {
      OrdinalLeTransitive(a[1..], b[1..], c[1..]);
    }
  }

  lemma {:induction false} OrdinalLeAntisymmetric(a: string, b: string)
    requires OrdinalLe(a, b) && OrdinalLe(b, a)
    ensures a == b
    decreases |a|
  {
    if |a| > 0 {
      OrdinalLeAntisymmetric(a[1..], b[1..]);
      assert a == [a[0]] + a[1..];
      assert b == [b[0]] + b[1..];
    }
  }

  /** `String.Replace(target, replacement)`: every occurrence of `target`, scanning left to right without overlap. */
  function ReplaceLiteral(s: string, target: string, replacement: string): string
    requires |target| > 0
    decreases |s|
  {
    if |s| == 0 then ""
    else if OccursAt(s, target, 0) then replacement + ReplaceLiteral(s[|target|..], target, replacement)
    else [s[0]] + ReplaceLiteral(s[1..], target, replacement)
  }

  /** Replacing a two-character sequence by a character of neither kind leaves no occurrence behind. */
  lemma {:induction false} ReplacePairLeavesNone(s: string, a: char, b: char, c: char)
    requires c != a && c != b
    ensures forall k :: !OccursAt(ReplaceLiteral(s, [a, b], [c]), [a, b], k)
    decreases |s|
  {
    var r := ReplaceLiteral(s, [a, b], [c]);
    if |s| > 0 {
      PairAt(s, a, b, 0);
      var rest := if OccursAt(s, [a, b], 0) then s[2..] else s[1..];
      var tail := ReplaceLiteral(rest, [a, b], [c]);
      ReplacePairLeavesNone(rest, a, b, c);
      var head := if OccursAt(s, [a, b], 0) then c else s[0];
      assert r == [head] + tail;
      if |rest| > 0 {
        PairAt(rest, a, b, 0);
        assert tail[0] == (if OccursAt(rest, [a, b], 0) then c else rest[0]);
      }
      forall k
        ensures !OccursAt(r, [a, b], k)
      {
        PairAt(r, a, b, k);
        PairAt(tail, a, b, k - 1);
      }
    }
  }

  /** Occurrence of a two-character pattern, character by character. */
  lemma PairAt(s: string, a: char, b: char, k: int)
    ensures OccursAt(s, [a, b], k) <==> 0 <= k && k + 1 < |s| && s[k] == a && s[k + 1] == b
  {
    if 0 <= k && k + 1 < |s| {
      assert s[k..k + 2] == [s[k], s[k + 1]];
    }
  }

  /** Decimal digit character of a value below ten. */
  function Digit(d: nat): (c: char)
    requires d < 10
    ensures '0' <= c <= '9'
  {
    ('0' as int + d) as char
  }

  /** Value of a decimal digit character. */
  function DigitValue(c: char): (d: nat)
    requires '0' <= c <= '9'
    ensures d < 10 && Digit(d) == c
  {
    c as int - '0' as int
  }

  /** `int.ToString()` for a non-negative value: its decimal digits, no leading zero. */
  function DecimalString(n: nat): (r: string)
    ensures |r| > 0
    ensures forall i :: 0 <= i < |r| ==> '0' <= r[i] <= '9'
    ensures |r| > 1 ==> r[0] != '0'
  {
    if n < 10 then [Digit(n)] else DecimalString(n / 10) + [Digit(n % 10)]
  }

  /** Reads a string of decimal digits back as a number. */
  function DecimalValue(s: string): nat
    requires forall i :: 0 <= i < |s| ==> '0' <= s[i] <= '9'
  {
    if |s| == 0 then 0 else DecimalValue(s[..|s| - 1]) * 10 + DigitValue(s[|s| - 1])
  }

  /** Decimal formatting is undone by reading the digits back. */
  lemma {:induction false} DecimalRoundTrip(n: nat)
    ensures DecimalValue(DecimalString(n)) == n
  {
    if n >= 10 {
      var s := DecimalString(n);
      DecimalRoundTrip(n / 10);
      assert s[..|s| - 1] == DecimalString(n / 10);
    }
  }

  /** `PadRight(width, ' ')`. */
  function PadRight(s: string, width: nat): (r: string)
    ensures |r| == if |s| >= width then |s| else width
    ensures r[..|s|] == s
    ensures forall i :: |s| <= i < |r| ==> r[i] == ' '
  {
    if |s| >= width then s else s + seq(width - |s|, _ => ' ')
  }

  /** Number of occurrences of one character. */
  function CountChar(s: string, c: char): nat {
    if |s| == 0 then 0 else (if s[0] == c then 1 else 0) + CountChar(s[1..], c)
  }

  lemma {:induction false} CountCharConcat(a: string, b: string, c: char)
    ensures CountChar(a + b, c) == CountChar(a, c) + CountChar(b, c)
    decreases |a|
  {
    if |a| > 0 {
      assert (a + b)[1..] == a[1..] + b;
      CountCharConcat(a[1..], b, c);
    } else {
      assert a + b == b;
    }
  }

  lemma {:induction false} CountCharAbsent(s: string, c: char)
    requires forall i :: 0 <= i < |s| ==> s[i] != c
    ensures CountChar(s, c) == 0
    decreases |s|
  {
    if |s| > 0 {
      CountCharAbsent(s[1..], c);
    }
  }

  /** A string, and each of its slices, is its consecutive pieces. */
  lemma Slices(s: string, a: nat, b: nat, c: nat)
    requires a <= b <= c <= |s|
    ensures s == s[..a] + s[a..b] + s[b..]
    ensures s[a..] == s[a..b] + s[b..]
    ensures s[a..] == s[a..b] + s[b..c] + s[c..]
    ensures s[a..c] == s[a..b] + s[b..c]
  {
  }
}

=== FILE: workspace.dfy ===
/**
 * The collection pass of `ParseIncludes`: which open editors contribute a
 * definition table, which caret and function list are handed to the merge,
 * and which function is current in the focused script. The condenser's output
 * for each editor is an input (`parsed`); the merge itself is not modelled.
 */
module Workspace {
  import opened Wrappers
  import opened Text
  import opened Definitions
  import opened Seqs
  import opened Resolver

  /** An open editor: its file extension, whether its view is loaded, its caret, and the condenser's table for its text. */
  datatype OpenEditor = OpenEditor(extension: string, isLoaded: bool, caret: int, parsed: Definition)

  /** The focused script's table together with the function enclosing its caret. */
  datatype ActiveFile = ActiveFile(def: Definition, currentFunction: Option<Function>)

  /** What the collection pass hands on. */
  datatype Collected = Collected(
    definitions: seq<Option<Definition>>,
    caret: int,
    currentFunctions: Option<seq<Function>>,
    active: Option<ActiveFile>)

  /** `Trim('.')`: the text without leading and trailing dots. */
  function TrimDots(s: string): (r: string)
    ensures |r| > 0 ==> r[0] != '.' && r[|r| - 1] != '.'
    ensures |r| <= |s|
    decreases |s|
  {
    if |s| > 0 && s[0] == '.' then TrimDots(s[1..])
    else if |s| > 0 && s[|s| - 1] == '.' then TrimDots(s[..|s| - 1])
    else s
  }

  /** How the editor treats a file, by extension. */
  datatype FileKind = IncludeFile | ScriptFile | OtherFile

  /** The extension without dots, compared case-insensitively with `inc` and `sp`, character by character. */
  function Classify(extension: string): FileKind {
    var k := TrimDots(extension);
    if |k| == 3 && LowerChar(k[0]) == 'i' && LowerChar(k[1]) == 'n' && LowerChar(k[2]) == 'c' then IncludeFile
    else if |k| == 2 && LowerChar(k[0]) == 's' && LowerChar(k[1]) == 'p' then ScriptFile
    else OtherFile
  }

  /** The classification is the invariant-culture comparison of the trimmed extension. */
  lemma ClassifyIgnoresCase(extension: string)
    ensures Classify(extension).IncludeFile? <==> EqualsIgnoreCase(TrimDots(extension), "inc")
    ensures Classify(extension).ScriptFile? <==> EqualsIgnoreCase(TrimDots(extension), "sp")
  {
    var k := TrimDots(extension);
    if |k| == 3 {
      assert Lower(k) == [LowerChar(k[0]), LowerChar(k[1]), LowerChar(k[2])];
    }
    if |k| == 2 {
      assert Lower(k) == [LowerChar(k[0]), LowerChar(k[1])];
    }
  }

  /** An include file: parsed as a library table. */
  predicate IsInclude(e: OpenEditor) {
    Classify(e.extension).IncludeFile?
  }

  /** A loaded script: parsed, and its caret and functions are tracked. */
  predicate IsLoadedScript(e: OpenEditor) {
    Classify(e.extension).ScriptFile? && e.isLoaded
  }

  /** The table an editor contributes, if any. */
  function Contribution(e: OpenEditor): Option<Definition> {
    if IsInclude(e) || IsLoadedScript(e) then Some(e.parsed) else None
  }

  /** Position of the last loaded script, if any. */
  function LastLoadedScript(editors: seq<OpenEditor>): (r: Option<nat>)
    ensures r.Some? ==> r.value < |editors| && IsLoadedScript(editors[r.value])
    ensures r.Some? ==> forall j :: r.value < j < |editors| ==> !IsLoadedScript(editors[j])
    ensures r.None? <==> forall j :: 0 <= j < |editors| ==> !IsLoadedScript(editors[j])
  {
    FindLast(editors, IsLoadedScript)
  }

  /** Extending the prefix by one editor moves the last loaded script there exactly when that editor is one. */
  lemma LastLoadedScriptStep(editors: seq<OpenEditor>, i: nat)
    requires i < |editors|
    ensures LastLoadedScript(editors[..i + 1]) ==
      if IsLoadedScript(editors[i]) then Some(i) else LastLoadedScript(editors[..i])
  {
    assert editors[..i + 1][..i] == editors[..i];
  }

  /** The active-file entry a focused editor produces. */
  function ActiveOf(e: OpenEditor): ActiveFile {
    ActiveFile(e.parsed, CurrentFunction(e.parsed.functions, e.caret))
  }

  /** One editor's share of the loop: its table, and whether it is a loaded script. */
  method Inspect(el: OpenEditor) returns (def: Option<Definition>, script: bool)
    ensures def == Contribution(el)
    ensures script == IsLoadedScript(el)
    ensures script ==> def == Some(el.parsed)
  {
    def := None;
    script := false;
    var kind := Classify(el.extension);
    if kind == IncludeFile {
      def := Some(el.parsed);
    }
    if kind == ScriptFile && el.isLoaded {
      def := Some(el.parsed);
      script := true;
    }
  }

  /** The focused editor's entry when it is a loaded script, otherwise the previous one. */
  function FocusedActive(editors: seq<OpenEditor>, focused: Option<nat>, previous: Option<ActiveFile>): Option<ActiveFile> {
    if focused.Some? && focused.value < |editors| && IsLoadedScript(editors[focused.value])
    then Some(ActiveOf(editors[focused.value])) else previous
  }

  /** The loop's state after the editors of `editors`, one editor at a time. */
  function Fold(editors: seq<OpenEditor>, focused: Option<nat>, previous: Option<ActiveFile>): Collected
    decreases |editors|
  {
    if |editors| == 0 then Collected([], -1, None, previous)
    else
      var c := Fold(editors[..|editors| - 1], focused, previous);
      var e := editors[|editors| - 1];
      if IsLoadedScript(e) then
        Collected(c.definitions + [Contribution(e)], e.caret, Some(e.parsed.functions),
          if focused == Some(|editors| - 1) then Some(ActiveOf(e)) else c.active)
      else Collected(c.definitions + [Contribution(e)], c.caret, c.currentFunctions, c.active)
  }

  /** The loop keeps every editor's table, in order. */
  lemma {:induction false} FoldDefinitions(editors: seq<OpenEditor>, focused: Option<nat>, previous: Option<ActiveFile>)
    ensures |Fold(editors, focused, previous).definitions| == |editors|
    ensures forall i :: 0 <= i < |editors| ==> Fold(editors, focused, previous).definitions[i] == Contribution(editors[i])
    decreases |editors|
  {
    if |editors| > 0 {
      var n := |editors| - 1;
      FoldDefinitions(editors[..n], focused, previous);
      var c := Fold(editors[..n], focused, previous);
      var d := Fold(editors, focused, previous);
      assert d.definitions == c.definitions + [Contribution(editors[n])];
      forall i | 0 <= i < |editors|
        ensures d.definitions[i] == Contribution(editors[i])
      {
        if i < n {
          assert editors[..n][i] == editors[i];
        }
      }
    }
  }

  /** The loop ends with the caret and functions of the last loaded script, or none. */
  lemma {:induction false} FoldLastScript(editors: seq<OpenEditor>, focused: Option<nat>, previous: Option<ActiveFile>)
    ensures LastLoadedScript(editors).None? ==>
      Fold(editors, focused, previous).caret == -1 && Fold(editors, focused, previous).currentFunctions.None?
    ensures LastLoadedScript(editors).Some? ==>
      var i := LastLoadedScript(editors).value;
      Fold(editors, focused, previous).caret == editors[i].caret
      && Fold(editors, focused, previous).currentFunctions == Some(editors[i].parsed.functions)
    decreases |editors|
  {
    if |editors| > 0 {
      var n := |editors| - 1;
      FoldLastScript(editors[..n], focused, previous);
      LastLoadedScriptStep(editors, n);
      assert editors[..n + 1] == editors;
      if LastLoadedScript(editors[..n]).Some? {
        var i := LastLoadedScript(editors[..n]).value;
        assert editors[..n][i] == editors[i];
      }
    }
  }

  /** The loop ends with the focused script's entry, or the previous one. */
  lemma {:induction false} FoldActive(editors: seq<OpenEditor>, focused: Option<nat>, previous: Option<ActiveFile>)
    ensures Fold(editors, focused, previous).active == FocusedActive(editors, focused, previous)
    decreases |editors|
  {
    if |editors| > 0 {
      var n := |editors| - 1;
      FoldActive(editors[..n], focused, previous);
      if focused.Some? && focused.value < n {
        assert editors[..n][focused.value] == editors[focused.value];
      }
    }
  }

  /**
   * The loop of `ParseIncludes` over the open editors. The caret and function
   * list come from the last loaded script; the focused editor, when it is a
   * loaded script, becomes the active file with its current function;
   * otherwise the previous active file is kept.
   */
  method CollectDefinitions(editors: seq<OpenEditor>, focused: Option<nat>, previous: Option<ActiveFile>)
    returns (c: Collected)
    ensures |c.definitions| == |editors|
    ensures forall i :: 0 <= i < |editors| ==> c.definitions[i] == Contribution(editors[i])
    ensures LastLoadedScript(editors).None? ==> c.caret == -1 && c.currentFunctions.None?
    ensures LastLoadedScript(editors).Some? ==>
      var i := LastLoadedScript(editors).value;
      c.caret == editors[i].caret && c.currentFunctions == Some(editors[i].parsed.functions)
    ensures c.active == FocusedActive(editors, focused, previous)
  {
    var definitions: seq<Option<Definition>> := [];
    var caret := -1;
    var currentFunctions: Option<seq<Function>> := None;
    var active := previous;
    for i := 0 to |editors|
      invariant Collected(definitions, caret, currentFunctions, active) == Fold(editors[..i], focused, previous)
    {
      var el := editors[i];
      var def, script := Inspect(el);
      if script {
        caret := el.caret;
        currentFunctions := Some(el.parsed.functions);
        if focused == Some(i) {
          active := Some(ActiveOf(el));
        }
      }
      definitions := definitions + [def];
      assert editors[..i + 1][..i] == editors[..i];
    }
    assert editors[..|editors|] == editors;
    c := Collected(definitions, caret, currentFunctions, active);
    FoldDefinitions(editors, focused, previous);
    FoldLastScript(editors, focused, previous);
    FoldActive(editors, focused, previous);
  }
}

=== FILE: wrappers.dfy ===
/** Optional values, standing in for the nullable references of the editor. */
module Wrappers {

  datatype Option<+T> = None | Some(value: T) {

    /** The `??` operator: this value when present, otherwise `other`. */
    function OrElse(other: Option<T>): Option<T> {
      match this
      case Some(_) => this
      case None => other
    }

    /** Returns the value encapsulated in Some or a default value if None */
    function GetOr(default: T): T {
      match this
      case Some(v) => v
      case None => default
    }
  }
}
